=== FILE: README.md ===
# Stock and sales bookkeeping of a small shop back office, in Dafny

This project models the part of the Flask back office (`app.py`, `models.py`)
that keeps stock quantities, the stock movement ledger, sales and supplier
orders in agreement. It also models the CPF check used for customers.

- **Sale** (`nova_venda`): reads the submitted (product, quantity) rows. It
  skips rows without a product id or without a positive numeric quantity. It
  checks every kept row against the current stock, and prices it at the
  promotional price when one is set, else at the base price. Then it writes the
  sale, its lines, the stock decrements and one 'SAÍDA' movement per line.
- **Supplier orders**: `novo_pedido` builds an order from the rows with a
  positive quantity. `contatar_fornecedor` builds a one-line restock order for
  a product. Both orders start 'Pendente' and append a log message.
- **Receipt** (`receber_pedido`): a 'Pendente' order moves to 'Recebido' once.
  Each line whose received quantity is not negative and whose product has a
  stock record is credited to stock with an 'ENTRADA' movement; the other
  lines are skipped.
- **Manual adjustment** (`api_produto_update`): sets a quantity to an absolute
  value and logs the signed difference as 'AJUSTE MANUAL'.
- **Catalog helpers**:
  - A new product's opening stock (`novo_produto`), which writes no movement.
  - The promotion rule (`criar_promocao`): a positive price is stored, anything
    else clears it.
- **CPF** (`valida_cpf`): keep the digits; require eleven that are not all
  equal; check both mod-11 check digits, with 10 read as 0.

Layout, one module per file:

| file | module | contents |
|---|---|---|
| `wrappers.dfy` | `Wrappers` | `Option` and `Result` |
| `form.dfy` | `Form` | `str.isdigit`, `int(...)` and `zip` on submitted form fields |
| `cpf.dfy` | `Cpf` | `valida_cpf` and its characterisation |
| `models.dfy` | `Models` | one datatype per table; column defaults; money in cents |
| `ledger.dfy` | `Ledger` | signed movement deltas, net movement per product, applying movements to stock |
| `database.dfy` | `Database` | the tables as one `Store` value; the error cases; the invariant `Consistent` every commit keeps |
| `sales.dfy` | `Sales` | the sale route as a function on `Store`, and its properties |
| `orders.dfy` | `Orders` | order creation, restock request and receipt as functions on `Store`, and their properties |
| `catalog.dfy` | `Catalog` | new product, promotion and manual adjustment as functions on `Store`, and their properties |
| `inventory.dfy` | `Shop` | class `Inventory`: the same operations as imperative methods that update the tables in place |

Each route is a step function `XStep(s, inputs)` that returns the new store and
a `Result`. On failure, the returned store is the old one. That is how the
database rollback (or the absence of any commit) is modelled. The class
`Inventory` has one method per route. Its loops are the route's loops, each in
a frame-free method (`PriceRows`, `DebitLines`, `ReadOrderRows`,
`CreditLines`). The body of each reading loop handles one row through the
same per-row function the step function uses (`PriceRow`, `OrderRow`,
`ReceiveLine`). Each method is proved to produce exactly what the step function
gives and to keep `Valid()`.

The invariant `Consistent` says:

- Every product has exactly one stock record. This follows from the non-null,
  single `estoque` relation.
- Every product id is below the autoincrement counter.
- A promotional price is absent or positive.
- Every quantity equals its opening quantity plus the signed sum of its
  movements ('SAÍDA' counts negatively).
- Every movement, sale line and order line names a known product.
- Every sale has at least one line, no product twice, positive quantities, and
  a total equal to the sum of unit price × quantity.

## Model

| member | source | states |
|---|---|---|
| Form.ParseDigits | app.py:369 | a field that passes `isdigit` is read by `int` as its decimal value, so the gate's two tests agree |
| Form.ParseInt | app.py:289-291 | Python `int` on a form field: an optional sign and at least one ASCII digit give the signed decimal value; any other text is an error (`None`) |
| Form.IsDigits | app.py:369 | `str.isdigit` on a form field: non-empty and every character an ASCII digit |
| Form.DecimalRoundTrip | app.py:377-380 | the decimal text of any natural number passes `isdigit` and `int` reads it back as that number |
| Form.Zip | app.py:376 | the rows are the pairs at equal positions, up to the shorter list |
| Cpf.OnlyDigits | app.py:37 | the filtered text holds only digits and is no longer than the input |
| Cpf.OnlyDigitsFilters | app.py:37 | the filter keeps a character iff it is a digit, in text order: it distributes over concatenation and keeps a single character exactly when it is a digit |
| Cpf.CheckDigit | app.py:40-42 | a check digit is always a single digit (remainder 10 read as 0) |
| Cpf.FormattingIrrelevant | app.py:37 | punctuation does not matter: a text is valid iff its digits alone are |
| Cpf.CheckDigitTextbook | app.py:41-42 | `(10·sum) mod 11`, with 10 read as 0, is the usual rule "11 − (sum mod 11), or 0 when the remainder is below 2" |
| Cpf.ChecksumIffCompletion | app.py:40-47 | eleven digits pass both checks iff they are the completion of their first nine digits |
| Cpf.ValidIffCompletion | app.py:35-48 | a text is a valid CPF iff its digits number eleven, are not all equal, and are the completion of their first nine |
| Cpf.IsValidCpf | app.py:35-48 | `valida_cpf`: the digits of the text number eleven, are not all equal, and pass both check digits; an accepted text has at least eleven characters |
| Cpf.RepeatedDigitPassesChecksum | app.py:38 | every repeated-digit string passes both checks, so the all-equal test is what rejects it |
| Cpf.ValidExample | app.py:35-48 | the number 529.982.247-25, written as digits, is accepted |
| Models.StockDefaults | models.py:51-52 | a new stock record defaults to quantity 0 and minimum 1 |
| Models.OrderDefaults | models.py:94 | a new supplier order defaults to 'Pendente' |
| Ledger.NetOfUnnamed | app.py:221 | a product no movement names has net movement 0 |
| Ledger.Apply | app.py:415 | applying movements keeps the set of stock records |
| Ledger.ApplyNet | app.py:317-318 | applying movements one at a time moves each product's quantity by the signed sum of its own movements and changes nothing else |
| Ledger.ApplyStep | app.py:415 | one more movement changes only its own product, by its signed quantity |
| Ledger.ApplyComposes | app.py:403-424 | applying movements in two batches equals applying them at once |
| Ledger.CommitKeepsBalance | app.py:317-318 | moving stock by a batch of movements and appending the same batch keeps quantities equal to opening plus net movement |
| Sales.AcceptedRows | app.py:376-378 | every row the loop keeps has a product id and a positive numeric quantity |
| Sales.AcceptedRowsFilters | app.py:376-378 | the loop keeps a row iff it is accepted, in order: the filter distributes over concatenation and keeps a single row exactly when it is accepted |
| Sales.PriceRow | app.py:377-389 | one row of the validation loop yields no line iff the row is not kept; a line it yields has the row's product and quantity, within stock, at the current unit price; an insufficient-stock refusal reports the quantity on hand |
| Sales.PlanSaleLines | app.py:376-389 | on success, one line per kept row, in order: the row's product and quantity, within stock, at the current unit price; an insufficient-stock refusal reports the quantity on hand |
| Sales.PlanSale | app.py:376-389 | the sale loop: kept rows priced one by one, stopping at the first refusal; its success condition and lines are given by `Sales.PlanSaleSucceedsIff` and `Sales.PlanSaleLines` |
| Sales.PlanSaleNext | app.py:376-389 | one more row either refuses the sale, adds its line, or adds nothing |
| Sales.PlanSaleStops | app.py:383-385 | a refused row ends the loop with its own error |
| Sales.PlanSaleSucceedsIff | app.py:381-385 | the validation loop succeeds iff every kept row names a known product with enough stock |
| Sales.PlanSaleFailureSticks | app.py:383-385 | once a row is refused, later rows cannot undo it |
| Sales.SellRows | app.py:391-433 | a failed or rolled-back sale leaves the store unchanged; a committed one appends exactly one sale and touches no catalog, order or message |
| Sales.SellStep | app.py:356-433 | the same for the whole request, with the gate as intended |
| Sales.SellStepAsWritten | app.py:369-371 | with the gate as written, the route behaves like the intended one whenever the loop keeps some row, and a refusal changes nothing |
| Sales.CorrectedGate | app.py:369-378 | the intended gate admits a request iff the loop keeps at least one row, and it admits nothing the written gate refuses |
| Sales.EntryCheckAsWritten | app.py:369 | the gate as written: some product id field exists and some quantity field, at any position, is a positive number |
| Sales.HasAcceptedRow | app.py:369-378 | the gate as intended: some paired row is one the loop keeps |
| Sales.EmptySaleAsWritten | app.py:369 | the written gate admits requests whose quantity sits beside an empty product field or past the end of the product list; the loop then keeps no row |
| Sales.SellAsWrittenRecordsEmptySale | app.py:369-426 | as written, such a request commits a sale with no lines and total 0, which breaks the invariant |
| Sales.SellRejectsUnservableRow | app.py:381-385 | one unknown product or one row over stock rejects the whole sale and changes nothing |
| Sales.SellRecordsRequest | app.py:387-411 | a committed sale records the customer and payment, one line per kept row at that moment's unit price, and total = Σ unit price × quantity |
| Sales.SellRowsWithoutLines | app.py:391-426 | when the loop keeps no row, the commit still records a sale with no lines and total 0, and moves no stock |
| Sales.SellRowsCommit | app.py:403-426 | a committed sale's lines are the plan's, with distinct in-stock products; stock moves by their movements, which are appended |
| Sales.NetOfSale | app.py:415-421 | in a sale without repeated products, a sold product's net movement is minus its quantity |
| Sales.ApplySale | app.py:415 | applying a sale lowers each sold product by its quantity and leaves the others alone |
| Sales.SellDebitsExactly | app.py:403-415 | a committed sale lowers each sold product's stock by exactly its quantity, keeps the set of stock records and changes no other product |
| Sales.SaidasAppended | app.py:417-424 | appending a sale's movements adds one 'SAÍDA' per line, in order, for the line's product and quantity |
| Sales.SellLogsSaidas | app.py:403-424 | a committed sale appends one positive 'SAÍDA' movement per line, in order, by the acting user, after the old ledger |
| Sales.SaleMovements | app.py:417-424 | one 'SAÍDA' movement per sale line, in order, for its product and quantity, by the acting user |
| Sales.SaleCommitConsistent | app.py:394-426 | committing a well-formed sale together with its movements keeps the database invariant |
| Sales.SellRowsPreservesConsistency | app.py:391-426 | committing a sale with at least one kept row keeps the database invariant |
| Sales.SellRowsKeepsStockNonNegative | app.py:383-415 | with non-negative stock, committing a sale never makes a quantity negative |
| Sales.SellStepCommits | app.py:391-426 | once every check passes, the sale step writes exactly the debited stock, the appended movements and the new sale |
| Sales.SellPreservesConsistency | app.py:391-426 | a committed sale keeps the database invariant |
| Sales.SellKeepsStockNonNegative | app.py:383 | with non-negative stock, a sale never makes a quantity negative |
| Sales.UnitPriceUnderPromotionRule | app.py:387 | a line is charged the promotional price when one is set, else the base price |
| Sales.UnitPrice | app.py:387 | the price charged is the base price or the set promotional price, and the base price when no promotion is set |
| Orders.KeptOrderRows | app.py:288-289 | every kept order row has a product id and a positive quantity |
| Orders.KeptOrderRowsFilters | app.py:288-289 | the loop keeps a row iff it has a product id and a positive quantity, in order: the filter distributes over concatenation and keeps a single row exactly when it passes |
| Orders.OrderRow | app.py:289-292 | one row of the order loop fails the request exactly when both fields are filled and the quantity is not a number, or it is positive and the product id is not a number or names no product; otherwise it yields no line exactly when it is not kept, and a line it yields has the row's known product and positive quantity |
| Orders.PlanOrderNext | app.py:288-293 | one more row either fails the request, adds its line, or adds nothing |
| Orders.PlanOrderStops | app.py:289-292 | a failing row ends the loop with its own error |
| Orders.PlanOrder | app.py:288-293 | on success, one order line per kept row, in order, for a known product and a positive quantity |
| Orders.PlanOrderSucceedsIff | app.py:288-293 | the order loop succeeds exactly when no row fails the request |
| Orders.PlanOrderFailureSticks | app.py:289-292 | once a row fails, later rows cannot undo it |
| Orders.CreateOrderStep | app.py:271-299 | succeeds exactly when there is a supplier, a product field and the order loop succeeds; success appends one 'Pendente' order for that supplier whose lines are the loop's, and one log message, and touches no stock or ledger; a refusal changes nothing |
| Orders.CreateOrderRecordsRows | app.py:288-291 | a created order has one line per kept row, with that row's product and positive quantity |
| Orders.CreateOrderMayHaveNoLines | app.py:279-297 | a request whose only row has quantity 0 still creates a 'Pendente' order, with no lines |
| Orders.CreateOrderPreservesConsistency | app.py:284-297 | order creation keeps the database invariant |
| Orders.ContactSupplierStep | app.py:178-207 | succeeds iff the product exists, has a supplier and the quantity is a number above 0; it then appends the single-line 'Pendente' order and a message naming the product |
| Orders.ContactSupplierPreservesConsistency | app.py:192-201 | a restock request keeps the database invariant |
| Orders.ReceiveLine | app.py:315-319 | one line of the receipt fails iff its received quantity is missing or not a number; otherwise it yields a movement exactly when the quantity is 0 or more and the product has stock, and that movement is an 'ENTRADA' of the quantity by the acting user |
| Orders.CreditedLines | app.py:315-316 | the lines a receipt credits, in order: each has a received quantity of 0 or more and a product with stock |
| Orders.PlanReceiptStops | app.py:315 | a line that fails ends the receipt with its own error |
| Orders.PlanReceiptShape | app.py:314-319 | the receipt loop succeeds iff every line has a numeric received quantity; it writes only non-negative 'ENTRADA' movements for products with stock |
| Orders.PlanReceipt | app.py:314-319 | the receipt loop: the order's lines in turn, stopping at the first unparsable quantity; its success condition is given by `Orders.PlanReceiptShape` and its movements by `Orders.PlanReceiptMovements` |
| Orders.PlanReceiptMovements | app.py:314-319 | a successful receipt writes exactly one 'ENTRADA' movement per credited line, in the order of the lines, with that line's product and received quantity, by the acting user |
| Orders.ReceiptMovesOrderProducts | app.py:318 | every receipt movement is for a product of the order |
| Orders.PlanReceiptFailureSticks | app.py:315 | once a line fails, later lines cannot undo it |
| Orders.PlanReceiptNext | app.py:314-319 | one more line either fails, adds its 'ENTRADA' movement, or adds nothing |
| Orders.ReceiveStep | app.py:304-327 | succeeds exactly when the order exists, is 'Pendente' and the receipt loop succeeds; a non-'Pendente' order is refused with nothing changed; a failure rolls everything back; success marks exactly that order 'Recebido' |
| Orders.ReceiveStepCommits | app.py:309-325 | a receipt of a 'Pendente' order whose lines all parse commits the credited stock, the appended movements and the 'Recebido' status together |
| Orders.ReceiveAtMostOnce | app.py:309-320 | after a successful receipt, a second receipt of the same order is refused and changes nothing |
| Orders.NetOfReceipt | app.py:316-318 | a receipt's net movement for a product is the sum of its non-negative received quantities |
| Orders.Credited | app.py:316-317 | the amount a receipt adds to a product: the sum of the non-negative received quantities of the order's lines for it |
| Orders.ReceiveCreditsStock | app.py:314-320 | a receipt adds to each product exactly its credited quantity and appends only non-negative 'ENTRADA' movements for the order's products |
| Orders.CreditedNonNegative | app.py:316 | negative received quantities are skipped, so a credit is never negative |
| Orders.ReceiveKeepsStockNonNegative | app.py:316-317 | a receipt never lowers a quantity |
| Orders.ReceiptCommitConsistent | app.py:316-321 | marking an order received while moving stock by appended movements of known products keeps the database invariant |
| Orders.ReceivePreservesConsistency | app.py:314-321 | a receipt keeps the database invariant |
| Catalog.AddProductStep | app.py:209-228 | succeeds iff name, price, a numeric quantity and a first supplier exist; the new product gets the next id, that quantity with minimum 1, and no movement |
| Catalog.AddProductPreservesConsistency | app.py:221-228 | a new product has net movement 0, and the invariant holds afterwards |
| Catalog.SetPromotionStep | app.py:247-261 | an unknown product is refused; the named product keeps its base price and supplier and its promotional price becomes the submitted value when positive and none otherwise; no other product changes |
| Catalog.PromotionPricesSales | app.py:254-258 | after the promotion route, the product is charged the new price when it is positive, else its base price |
| Catalog.SetPromotionPreservesConsistency | app.py:254-260 | the promotion route keeps the invariant |
| Catalog.AdjustStep | app.py:446-468 | succeeds iff id and quantity are given and the product has stock, whatever the quantity's sign; a refusal changes nothing |
| Catalog.AdjustSetsExactly | app.py:459-463 | the quantity becomes exactly the value given and no other product changes; one 'AJUSTE MANUAL' movement is appended, and old quantity plus its quantity equals the new one |
| Catalog.AdjustIsLoggedMovement | app.py:460-462 | the adjustment is exactly the application of the movement it logs |
| Catalog.AdjustLastWins | app.py:460-461 | two adjustments leave the second value; their movements together record the change from the original quantity |
| Catalog.AdjustMayGoNegative | app.py:453-460 | no lower bound is checked: a negative quantity is accepted |
| Catalog.AdjustPreservesConsistency | app.py:458-464 | an adjustment keeps the database invariant |
| Shop.PriceRows | app.py:373-389 | the validation loop yields exactly the plan of the sale, and its running total is Σ unit price × quantity |
| Shop.DebitLines | app.py:403-424 | the write loop leaves stock moved by the lines' 'SAÍDA' movements, appended to the ledger |
| Shop.ReadOrderRows | app.py:287-293 | the order loop yields exactly the order plan |
| Shop.CreditLines | app.py:314-319 | the receipt loop yields exactly the receipt plan's stock and ledger, or its error |
| Shop.Inventory.Sell | app.py:356-433 | updates the tables exactly as the sale step does, and keeps the invariant |
| Shop.Inventory.CreateOrder | app.py:271-299 | updates the tables exactly as the order step does, and keeps the invariant |
| Shop.Inventory.ContactSupplier | app.py:178-207 | updates the tables exactly as the restock step does, and keeps the invariant |
| Shop.Inventory.ReceiveOrder | app.py:304-327 | updates the tables exactly as the receipt step does, and keeps the invariant |
| Shop.Inventory.Adjust | app.py:446-468 | updates the tables exactly as the adjustment step does, and keeps the invariant |
| Shop.Inventory.AddProduct | app.py:209-228 | updates the tables exactly as the new-product step does, and keeps the invariant |
| Shop.Inventory.SetPromotion | app.py:247-261 | updates the tables exactly as the promotion step does, and keeps the invariant |

## Left out

- The default quantity 1 of a sale line (`ProdutoVenda.quantidade`, models.py:84) is not modelled: the sale route always supplies the quantity (app.py:410).
- Column widths are not modelled. Quantities (`quantidade_produto`, a movement's `quantidade`, models.py:51, 122) are unbounded integers, not the database's `Integer`. Prices (`preco`, `preco_promocional`, `preco_unitario`, models.py:60-61, 85) are unbounded cents, not `Numeric(10, 2)`, and so is the sale total (`valor_total`, `Numeric(12, 2)`, models.py:73). On a backend that enforces the widths, an overflowing value fails at commit and is rolled back (app.py:325, 431, 467). In the model such an adjustment, receipt or sale is committed.

- Login, registration, sessions, role checks and password hashing are not modelled. The acting user id is a parameter.
- Templates, flash messages, redirects, HTTP status codes and the read-only routes (listings, history, reports, exports) are not modelled.
- Money is integer cents. The float arithmetic of the sale total (`float(price) * qty`) and its rounding are not modelled.
- Timestamps, names, descriptions, categories, observation texts and the text of log messages are not modelled. A log message is recorded only as supplier plus optional product.
- Concurrency is out of scope: two requests reading and then writing the same stock row.
- SQLAlchemy transaction mechanics are not modelled. Each route either commits all its writes or none.
- Sales and orders are identified by their position, not by autoincrement keys.
- Foreign keys not checked by the code are taken as given: the customer id, the supplier id of a new order and the payment method. The payment method is the first payment row, passed in as an option.
- Form.ParseInt: models Python `int` on ASCII text only. Surrounding whitespace, digit-group underscores and non-ASCII digits are not accepted.
- Form.IsDigits: models `str.isdigit` on ASCII text only; non-ASCII digits, which Python accepts, are not digits here.
- Catalog.AdjustStep: receives the new quantity already converted. `int` applied to a JSON string or float is not modelled: a failing conversion would roll back, and a float would be truncated.
- Catalog.AddProductStep: the price comes in already converted to cents; a failing `float(preco)` is not modelled. A missing default category is not modelled.
- Catalog.SetPromotionStep: the promotional price comes in as cents, with an empty field written as `None`.
- Editing a product's name, description or base price (`editar_produto`) is not modelled; it touches no stock.
- Customers and accounts are not modelled, so neither is the uniqueness of a customer's CPF or a login (models.py:13, 42). The CPF check is modelled on its own.
- `import_estoque_json.py` and `import_sql.py` are not part of this model.
- The restock threshold (`min_produto`) is stored, but the low-stock alerts that read it are not modelled.

## Findings

| source | as written | input that shows it | evidently intended | confidence | as-written member | corrected member |
|---|---|---|---|---|---|---|
| app.py:369 | The entry gate looks for a positive quantity anywhere in the quantity list. It does not look among the rows the loop actually keeps. | `produto_id[] = [""]`, `quantidade[] = ["3"]`. The row has no product id, so the loop keeps nothing. The route then commits a sale with no lines and total 0. The same happens for `["7"]`, `["0", "2"]`, where the positive quantity lies past the end of the product list. | A sale needs at least one row the loop sells. The warning text asks for at least one product with a quantity above zero. | high (not executed) | Sales.SellAsWrittenRecordsEmptySale | Sales.CorrectedGate |

The model follows the code in two places where a reader might expect
otherwise. `novo_pedido` creates an order even when it keeps no rows
(`Orders.CreateOrderMayHaveNoLines`). `api_produto_update` accepts a
new quantity below zero (`Catalog.AdjustMayGoNegative`). A receipt never
lowers a quantity (`Orders.ReceiveCreditsStock`, `Orders.CreditedNonNegative`),
but it may leave an already negative quantity below zero when the credit does
not cover it.
The sale and class methods use the corrected gate, `Sales.HasAcceptedRow`.

=== FILE: catalog.dfy ===
/** Changes to the product catalog that touch stock or prices: a new
    product's opening stock (`novo_produto`), the promotion rule
    (`criar_promocao`) and the manual stock adjustment (`api_produto_update`). */
module Catalog {
  import opened Wrappers
  import opened Form
  import opened Models
  import opened Ledger
  import opened Database
  import opened Sales

  /** `novo_produto`: name, price and quantity are required; the quantity
      must be a number; the product is attached to the first supplier, so a
      database without suppliers fails. The new stock record has the given
      quantity and minimum 1, and no movement is written for it. */
  function AddProductStep(s: Store, name: string, price: Option<Cents>, quantity: string, firstSupplier: Option<SupplierId>): (r: (Store, Result<ProductId, Error>))
    ensures r.1.Failure? ==> r.0 == s
    ensures r.1.Success? <==> |name| > 0 && price.Some? && ParseInt(quantity).Some? && firstSupplier.Some?
    ensures r.1.Success? ==>
      && r.1.value == s.nextProduct && r.0.nextProduct > r.1.value
      && r.0.catalog == s.catalog[r.1.value := Product(price.value, None, firstSupplier)]
      && r.0.stock == s.stock[r.1.value := Stock(ParseInt(quantity).value, 1)]
      && r.0.opening == s.opening[r.1.value := ParseInt(quantity).value]
    ensures r.0.ledger == s.ledger && r.0.sales == s.sales && r.0.orders == s.orders && r.0.messages == s.messages
  {
    if |name| == 0 || price.None? || |quantity| == 0 then (s, Failure(InvalidData))
    else
      match ParseInt(quantity)
      case None => (s, Failure(MalformedNumber))
      case Some(q) =>
        if firstSupplier.None? then (s, Failure(NoSupplier))
        else
          var id := s.nextProduct;
          (s.(catalog := s.catalog[id := Product(price.value, None, firstSupplier)],
              stock := s.stock[id := NewStock(Some(q), Some(1))],
              opening := s.opening[id := q],
              nextProduct := id + 1), Success(id))
  }

  /** `criar_promocao`: a positive promotional price is stored, anything else
      (an empty field, zero, a negative value) clears the promotion. */
  function SetPromotionStep(s: Store, product: ProductId, promo: Option<Cents>): (r: (Store, Result<ProductId, Error>))
    ensures r.1.Failure? ==> r.0 == s
    ensures r.1.Success? <==> product in s.catalog
    ensures r.1.Success? ==> r.0.catalog.Keys == s.catalog.Keys && forall p :: p in s.catalog && p != product ==> r.0.catalog[p] == s.catalog[p]
    ensures r.1.Success? ==> r.0.catalog[product] == s.catalog[product].(promoPrice := if promo.Some? && promo.value > 0 then promo else None)
    ensures r.0.stock == s.stock && r.0.opening == s.opening && r.0.nextProduct == s.nextProduct
    ensures r.0.ledger == s.ledger && r.0.sales == s.sales && r.0.orders == s.orders && r.0.messages == s.messages
  {
    if product !in s.catalog then (s, Failure(UnknownProduct(product)))
    else
      var newPromo := if promo.Some? && promo.value > 0 then promo else None;
      (s.(catalog := s.catalog[product := s.catalog[product].(promoPrice := newPromo)]), Success(product))
  }

  /** `api_produto_update`: both the product id and the new quantity are
      required, and the product must exist with a stock record. The quantity
      is set to the new value, whatever its sign, and one 'AJUSTE MANUAL'
      movement records the difference. */
  function AdjustStep(s: Store, product: Option<ProductId>, quantity: Option<int>, user: UserId): (r: (Store, Result<ProductId, Error>))
    ensures r.1.Failure? ==> r.0 == s
    ensures r.1.Success? <==> product.Some? && quantity.Some? && product.value in s.catalog && product.value in s.stock
    ensures r.1.Success? ==> r.1.value == product.value
    ensures r.0.catalog == s.catalog && r.0.opening == s.opening && r.0.nextProduct == s.nextProduct
    ensures r.0.sales == s.sales && r.0.orders == s.orders && r.0.messages == s.messages
  {
    if product.None? || quantity.None? then (s, Failure(InvalidData))
    else
      var p := product.value;
      if p !in s.catalog || p !in s.stock then (s, Failure(UnknownProduct(p)))
      else
        var old_ := s.stock[p].quantity;
        var m := Movement(p, Some(user), AjusteManual, quantity.value - old_);
        (s.(stock := s.stock[p := s.stock[p].(quantity := quantity.value)], ledger := s.ledger + [m]), Success(p))
  }

  /** A new product starts with no movement of its own: on a consistent
      database its net movement is zero, so its quantity is its opening
      quantity, and the invariant holds afterwards. */
  lemma AddProductPreservesConsistency(s: Store, name: string, price: Option<Cents>, quantity: string, firstSupplier: Option<SupplierId>)
    requires Consistent(s)
    ensures
      var (t, r) := AddProductStep(s, name, price, quantity, firstSupplier);
      && Consistent(t)
      && (r.Success? ==> r.value !in s.catalog && Net(t.ledger, r.value) == 0)
  {
    var (t, r) := AddProductStep(s, name, price, quantity, firstSupplier);
    if r.Success? {
      var id := r.value;
      assert id !in s.catalog;
      NetOfUnnamed(s.ledger, id);
      forall i | 0 <= i < |t.sales| ensures SaleRecorded(t.catalog, t.sales[i]) {
        assert SaleRecorded(s.catalog, s.sales[i]);
      }
      forall i | 0 <= i < |t.orders| ensures OrderRecorded(t.catalog, t.orders[i]) {
        assert OrderRecorded(s.catalog, s.orders[i]);
      }
    }
  }

  /** The promotion rule as seen by the sale: after the promotion route, a
      line for the product is priced at the new promotional price when it is
      positive and at the base price otherwise. */
  lemma PromotionPricesSales(s: Store, product: ProductId, promo: Option<Cents>)
    requires product in s.catalog
    ensures
      var t := SetPromotionStep(s, product, promo).0;
      && PromotionSet(t.catalog[product])
      && UnitPrice(t.catalog[product]) == (if promo.Some? && promo.value > 0 then promo.value else s.catalog[product].price)
  {
  }

  lemma SetPromotionPreservesConsistency(s: Store, product: ProductId, promo: Option<Cents>)
    requires Consistent(s)
    ensures Consistent(SetPromotionStep(s, product, promo).0)
  {
    var (t, r) := SetPromotionStep(s, product, promo);
    if r.Success? {
      forall i | 0 <= i < |t.sales| ensures SaleRecorded(t.catalog, t.sales[i]) {
        assert SaleRecorded(s.catalog, s.sales[i]);
      }
      forall i | 0 <= i < |t.orders| ensures OrderRecorded(t.catalog, t.orders[i]) {
        assert OrderRecorded(s.catalog, s.orders[i]);
      }
    }
  }

  /** A successful adjustment sets the product's quantity to exactly the
      given value, leaves every other product alone, and appends one
      'AJUSTE MANUAL' movement whose quantity is new minus old, so that old
      plus the logged quantity is new. */
  lemma AdjustSetsExactly(s: Store, product: ProductId, quantity: int, user: UserId)
    requires product in s.catalog && product in s.stock
    ensures
      var t := AdjustStep(s, Some(product), Some(quantity), user).0;
      && t.stock.Keys == s.stock.Keys
      && t.stock[product] == s.stock[product].(quantity := quantity)
      && (forall p :: p in s.stock && p != product ==> t.stock[p] == s.stock[p])
      && |t.ledger| == |s.ledger| + 1 && t.ledger[..|s.ledger|] == s.ledger
      && var m := t.ledger[|s.ledger|];
         m.product == product && m.kind == AjusteManual && m.user == Some(user)
         && s.stock[product].quantity + m.quantity == quantity
  {
    var t := AdjustStep(s, Some(product), Some(quantity), user).0;
    assert t.ledger[..|s.ledger|] == s.ledger;
  }

  /** The adjustment is exactly the ledger step for the movement it logs. */
  lemma AdjustIsLoggedMovement(s: Store, product: Option<ProductId>, quantity: Option<int>, user: UserId)
    ensures
      var (t, r) := AdjustStep(s, product, quantity, user);
      r.Success? ==> |t.ledger| == |s.ledger| + 1 && t.stock == Apply(s.stock, [t.ledger[|s.ledger|]])
  {
    var (t, r) := AdjustStep(s, product, quantity, user);
    if r.Success? {
      var m := t.ledger[|s.ledger|];
      ApplyStep(s.stock, [], m);
      assert [] + [m] == [m];
      var zero := Apply(s.stock, []);
      assert zero == s.stock;
    }
  }

  /** Adjustments set absolute values: two in a row leave the quantity the
      second one gives, and their two movements together record the change
      from the original quantity to that value. */
  lemma AdjustLastWins(s: Store, product: ProductId, q1: int, q2: int, u1: UserId, u2: UserId)
    requires product in s.catalog && product in s.stock
    ensures
      var t1 := AdjustStep(s, Some(product), Some(q1), u1).0;
      var t2 := AdjustStep(t1, Some(product), Some(q2), u2).0;
      && t2.stock == AdjustStep(s, Some(product), Some(q2), u2).0.stock
      && Net(t2.ledger, product) == Net(s.ledger, product) + (q2 - s.stock[product].quantity)
  {
    var t1 := AdjustStep(s, Some(product), Some(q1), u1).0;
    var t2 := AdjustStep(t1, Some(product), Some(q2), u2).0;
    var m1 := t1.ledger[|s.ledger|];
    var m2 := t2.ledger[|t1.ledger|];
    assert t2.ledger == s.ledger + [m1, m2];
    NetAppend(s.ledger, [m1, m2], product);
    assert [m1, m2][..1] == [m1];
    assert [m1][..0] == [];
  }

  /** No lower bound is checked: an adjustment to a negative quantity is accepted. */
  lemma AdjustMayGoNegative(s: Store, product: ProductId, user: UserId)
    requires product in s.catalog && product in s.stock
    ensures
      var (t, r) := AdjustStep(s, Some(product), Some(-1), user);
      r.Success? && t.stock[product].quantity < 0
  {
  }

  lemma AdjustPreservesConsistency(s: Store, product: Option<ProductId>, quantity: Option<int>, user: UserId)
    requires Consistent(s)
    ensures Consistent(AdjustStep(s, product, quantity, user).0)
  {
    var (t, r) := AdjustStep(s, product, quantity, user);
    if r.Success? {
      var m := t.ledger[|s.ledger|];
      assert t.ledger == s.ledger + [m];
      AdjustIsLoggedMovement(s, product, quantity, user);
      CommitKeepsBalance(s.stock, s.opening, s.ledger, [m]);
    }
  }
}

=== FILE: cpf.dfy ===
/** The Brazilian CPF (taxpayer number) check used when customers are looked
    up or registered: nine base digits followed by two mod-11 check digits. */
module Cpf {
  import opened Form

  /** `''.join(filter(str.isdigit, cpf))`: the digits of the text, in order. */
  function OnlyDigits(s: string): (r: string)
    ensures AllDigits(r) && |r| <= |s|
    decreases |s|
  {
    if s == [] then []
    else (if IsDigit(s[0]) then [s[0]] else []) + OnlyDigits(s[1..])
  }

  /** The digit filter keeps a character exactly when it is a digit, in the
      order of the text: it distributes over concatenation and keeps a single
      character iff that character is a digit. */
  lemma {:induction false} OnlyDigitsFilters(a: string, b: string, c: char)
    ensures OnlyDigits(a + b) == OnlyDigits(a) + OnlyDigits(b)
    ensures OnlyDigits([c]) == if IsDigit(c) then [c] else []
    decreases |a|
  {
    if a == [] {
      assert a + b == b;
    } else {
      var head := if IsDigit(a[0]) then [a[0]] else [];
      assert (a + b)[0] == a[0];
      assert (a + b)[1..] == a[1..] + b;
      calc {
        OnlyDigits(a + b);
        head + OnlyDigits(a[1..] + b);
        { OnlyDigitsFilters(a[1..], b, c); }
        head + (OnlyDigits(a[1..]) + OnlyDigits(b));
        (head + OnlyDigits(a[1..])) + OnlyDigits(b);
        OnlyDigits(a) + OnlyDigits(b);
      }
    }
    assert [c][1..] == [];
  }

  /** `sum(int(d[i]) * (top - i) for i in range(k))`. */
  function WeightedSum(d: string, k: nat, top: int): int
    requires k <= |d| && AllDigits(d)
  {
    if k == 0 then 0 else WeightedSum(d, k - 1, top) + DigitValue(d[k - 1]) * (top - (k - 1))
  }

  /** The check digit that must follow the first `k` digits: ten times their
      weighted sum (weights k + 1 down to 2) modulo 11, with 10 read as 0. */
  function CheckDigit(d: string, k: nat): (c: nat)
    requires k <= |d| && AllDigits(d)
    ensures c < 10
  {
    var r := (WeightedSum(d, k, k + 1) * 10) % 11;
    if r == 10 then 0 else r
  }

  predicate AllSame(d: string) {
    forall i :: 0 <= i < |d| ==> d[i] == d[0]
  }

  /** Both check digits of an 11-digit string are the ones its prefix calls for. */
  predicate PassesChecksum(d: string)
    requires |d| == 11 && AllDigits(d)
  {
    CheckDigit(d, 9) == DigitValue(d[9]) && CheckDigit(d, 10) == DigitValue(d[10])
  }

  /** `valida_cpf`: the digits of the text must number eleven, must not all be
      equal, and must carry both check digits. */
  predicate IsValidCpf(cpf: string)
    ensures IsValidCpf(cpf) ==> |cpf| >= 11
  {
    var d := OnlyDigits(cpf);
    |d| == 11 && !AllSame(d) && PassesChecksum(d)
  }

  /** The CPF whose first nine digits are `base`, followed by its two check digits. */
  function Complete(base: string): (d: string)
    requires |base| == 9 && AllDigits(base)
    ensures |d| == 11 && AllDigits(d) && d[..9] == base
  {
    var withFirst := base + [DigitChar(CheckDigit(base, 9))];
    withFirst + [DigitChar(CheckDigit(withFirst, 10))]
  }

  function Repeat(c: char, n: nat): (s: string)
    ensures |s| == n && forall i :: 0 <= i < n ==> s[i] == c
  {
    seq(n, _ => c)
  }

  /** The sum of the weights `top - i` for `i` below `k`. */
  function Weights(k: nat, top: int): int {
    if k == 0 then 0 else Weights(k - 1, top) + (top - (k - 1))
  }

  lemma {:induction false} OnlyDigitsOfDigits(s: string)
    requires AllDigits(s)
    ensures OnlyDigits(s) == s
  {
    if s != [] {
      OnlyDigitsOfDigits(s[1..]);
      assert [s[0]] + s[1..] == s;
    }
  }

  /** Punctuation is irrelevant: the text and its digits alone are valid or
      invalid together, as the lookup and registration routes rely on when
      they clean the number before checking it. */
  lemma FormattingIrrelevant(cpf: string)
    ensures IsValidCpf(OnlyDigits(cpf)) == IsValidCpf(cpf)
  {
    OnlyDigitsOfDigits(OnlyDigits(cpf));
  }

  /** The rule of the source agrees with the usual statement of the CPF check
      digit: 11 minus the weighted sum's remainder modulo 11, or 0 when that
      remainder is 0 or 1. */
  lemma CheckDigitTextbook(d: string, k: nat)
    requires k <= |d| && AllDigits(d)
    ensures CheckDigit(d, k) == (var r := WeightedSum(d, k, k + 1) % 11; if r < 2 then 0 else 11 - r)
  {
    TenTimesModEleven(WeightedSum(d, k, k + 1));
  }

  /** Ten times a number, modulo 11, is 11 minus the number's remainder (0 for remainder 0). */
  lemma TenTimesModEleven(sum: int)
    ensures var r := sum % 11; (sum * 10) % 11 == (if r == 0 then 0 else 11 - r)
  {
    var q, r := sum / 11, sum % 11;
    if r == 0 {
      RemainderEleven(sum * 10, 10 * q, 0);
    } else {
      RemainderEleven(sum * 10, 10 * q + r - 1, 11 - r);
    }
  }

  /** The remainder modulo 11 is the unique `b` in [0, 11) with `x == 11 * a + b`. */
  lemma RemainderEleven(x: int, a: int, b: int)
    requires x == 11 * a + b && 0 <= b < 11
    ensures x % 11 == b
  {
  }

  lemma {:induction false} WeightedSumPrefix(d: string, e: string, k: nat, top: int)
    requires k <= |d| && k <= |e| && AllDigits(d) && AllDigits(e) && d[..k] == e[..k]
    ensures WeightedSum(d, k, top) == WeightedSum(e, k, top)
  {
    if k > 0 {
      assert d[k - 1] == d[..k][k - 1] == e[..k][k - 1] == e[k - 1];
      assert d[..k - 1] == d[..k][..k - 1] == e[..k][..k - 1] == e[..k - 1];
      WeightedSumPrefix(d, e, k - 1, top);
    }
  }

  lemma DigitCharOfValue(c: char)
    requires IsDigit(c)
    ensures DigitChar(DigitValue(c)) == c
  {
  }

  /** The check digits are fixed by the first nine: an 11-digit string passes
      both checks exactly when it is the completion of its own first nine digits. */
  lemma ChecksumIffCompletion(d: string)
    requires |d| == 11 && AllDigits(d)
    ensures PassesChecksum(d) <==> d == Complete(d[..9])
  {
    var base := d[..9];
    var first := DigitChar(CheckDigit(base, 9));
    var withFirst := base + [first];
    WeightedSumPrefix(d, base, 9, 10);
    assert CheckDigit(d, 9) == CheckDigit(base, 9);
    DigitCharOfValue(d[9]);
    DigitCharOfValue(d[10]);
    if d[9] == first {
      assert d[..10] == withFirst[..10];
      WeightedSumPrefix(d, withFirst, 10, 11);
      assert CheckDigit(d, 10) == CheckDigit(withFirst, 10);
      assert d == withFirst + [d[10]];
    }
  }

  /** `valida_cpf` accepts exactly the 11-digit numbers, not all one digit
      repeated, whose last two digits complete the first nine. */
  lemma ValidIffCompletion(cpf: string)
    ensures IsValidCpf(cpf) <==>
      var d := OnlyDigits(cpf); |d| == 11 && !AllSame(d) && d == Complete(d[..9])
  {
    var d := OnlyDigits(cpf);
    if |d| == 11 {
      ChecksumIffCompletion(d);
    }
  }

  lemma {:induction false} WeightedSumOfRepeat(d: string, k: nat, top: int)
    requires k <= |d| && AllDigits(d) && |d| > 0 && AllSame(d)
    ensures WeightedSum(d, k, top) == DigitValue(d[0]) * Weights(k, top)
  {
    if k > 0 {
      WeightedSumOfRepeat(d, k - 1, top);
      var v := DigitValue(d[0]);
      assert v * Weights(k, top) == v * Weights(k - 1, top) + v * (top - (k - 1));
    }
  }

  /** Eleven copies of one digit pass both checksum tests (the weights sum to
      54 and 65, both congruent to 10 modulo 11), so it is the explicit
      all-equal test alone that rejects numbers such as 111.111.111-11. */
  lemma RepeatedDigitPassesChecksum(c: char)
    requires IsDigit(c)
    ensures PassesChecksum(Repeat(c, 11))
    ensures !IsValidCpf(Repeat(c, 11))
  {
    RepeatFirstCheck(c);
    RepeatSecondCheck(c);
    OnlyDigitsOfDigits(Repeat(c, 11));
  }

  lemma RepeatFirstCheck(c: char)
    requires IsDigit(c)
    ensures CheckDigit(Repeat(c, 11), 9) == DigitValue(c)
  {
    var v := DigitValue(c);
    WeightedSumOfRepeat(Repeat(c, 11), 9, 10);
    assert Weights(9, 10) == 54;
    RemainderEleven(540 * v, 49 * v, v);
  }

  lemma RepeatSecondCheck(c: char)
    requires IsDigit(c)
    ensures CheckDigit(Repeat(c, 11), 10) == DigitValue(c)
  {
    var v := DigitValue(c);
    WeightedSumOfRepeat(Repeat(c, 11), 10, 11);
    assert Weights(10, 11) == 65;
    RemainderEleven(650 * v, 59 * v, v);
  }

  /** A worked number: 529.982.247-25, digits only, is accepted. */
  lemma ValidExample()
    ensures IsValidCpf("52998224725")
  {
    ExampleDigits();
    ExampleChecksum();
  }

  lemma ExampleDigits()
    ensures AllDigits("52998224725") && OnlyDigits("52998224725") == "52998224725"
    ensures !AllSame("52998224725")
  {
    ExampleAllDigits();
    OnlyDigitsOfDigits("52998224725");
    var d := "52998224725";
    assert d[1] != d[0];
  }

  lemma ExampleAllDigits()
    ensures AllDigits("52998224725")
  {
  }

  lemma ExampleChecksum()
    requires AllDigits("52998224725")
    ensures PassesChecksum("52998224725")
  {
    ExampleFirstSum();
    ExampleSecondSum();
  }

  lemma ExampleFirstSum()
    ensures CheckDigit("52998224725", 9) == 2
  {
    var d := "52998224725";
    assert WeightedSum(d, 1, 10) == 50;
    assert WeightedSum(d, 2, 10) == 68;
    assert WeightedSum(d, 3, 10) == 140;
    assert WeightedSum(d, 4, 10) == 203;
    assert WeightedSum(d, 5, 10) == 251;
    assert WeightedSum(d, 6, 10) == 261;
    assert WeightedSum(d, 7, 10) == 269;
    assert WeightedSum(d, 8, 10) == 281;
    assert WeightedSum(d, 9, 10) == 295;
  }

  lemma ExampleSecondSum()
    ensures CheckDigit("52998224725", 10) == 5
  {
    var d := "52998224725";
    assert WeightedSum(d, 1, 11) == 55;
    assert WeightedSum(d, 2, 11) == 75;
    assert WeightedSum(d, 3, 11) == 156;
    assert WeightedSum(d, 4, 11) == 228;
    assert WeightedSum(d, 5, 11) == 284;
    assert WeightedSum(d, 6, 11) == 296;
    assert WeightedSum(d, 7, 11) == 306;
    assert WeightedSum(d, 8, 11) == 322;
    assert WeightedSum(d, 9, 11) == 343;
    assert WeightedSum(d, 10, 11) == 347;
  }
}

=== FILE: database.dfy ===
/** The part of the database the core acts on, as one value, and the
    invariant every committed operation keeps. */
module Database {
  import opened Models
  import opened Ledger

  /** The tables the core reads and writes. `opening` holds each product's
      quantity at creation, which no movement records; `nextProduct` is the
      product table's autoincrement counter. */
  datatype Store = Store(
    catalog: map<ProductId, Product>,
    stock: map<ProductId, Stock>,
    opening: map<ProductId, int>,
    nextProduct: int,
    ledger: seq<Movement>,
    sales: seq<Sale>,
    orders: seq<Order>,
    messages: seq<Message>)

  /** Why a request is refused or rolled back. */
  datatype Error =
    | NoCustomer
    | NoSaleLines
    | MalformedNumber
    | UnknownProduct(product: ProductId)
    | InsufficientStock(product: ProductId, available: int)
    | NoPaymentMethod
    | DuplicateSaleLine
    | MissingSupplierOrProducts
    | NoSupplier
    | NonPositiveQuantity
    | UnknownOrder
    | AlreadyProcessed
    | MissingReceivedQuantity(product: ProductId)
    | InvalidData

  /** An empty database; autoincrement counters start at 1. */
  const Empty: Store := Store(map[], map[], map[], 1, [], [], [], [])

  /** A promotional price is either absent or positive: the promotion route
      stores only positive values and clears it otherwise. */
  predicate PromotionSet(product: Product) {
    product.promoPrice.Some? ==> product.promoPrice.value > 0
  }

  /** A recorded sale: at least one line, no product twice, every line a
      known product with a positive quantity, and the total the sum of unit
      price times quantity. */
  predicate SaleRecorded(catalog: map<ProductId, Product>, sale: Sale) {
    && |sale.lines| > 0
    && DistinctProducts(sale.lines)
    && (forall i :: 0 <= i < |sale.lines| ==> sale.lines[i].product in catalog && sale.lines[i].quantity > 0)
    && sale.total == SumLines(sale.lines)
  }

  /** A recorded supplier order: every line a known product with a positive quantity. */
  predicate OrderRecorded(catalog: map<ProductId, Product>, order: Order) {
    forall i :: 0 <= i < |order.lines| ==> order.lines[i].product in catalog && order.lines[i].quantity > 0
  }

  /** The database invariant: every product has exactly one stock row, ids
      come from the counter, quantities agree with the ledger, and every
      movement, sale and order refers to known products. */
  predicate Consistent(s: Store) {
    && s.catalog.Keys == s.stock.Keys
    && (forall p :: p in s.catalog ==> p < s.nextProduct)
    && (forall p :: p in s.catalog ==> PromotionSet(s.catalog[p]))
    && Balanced(s.stock, s.opening, s.ledger)
    && (forall i :: 0 <= i < |s.ledger| ==> s.ledger[i].product in s.catalog)
    && (forall i :: 0 <= i < |s.sales| ==> SaleRecorded(s.catalog, s.sales[i]))
    && (forall i :: 0 <= i < |s.orders| ==> OrderRecorded(s.catalog, s.orders[i]))
  }

  /** Every quantity on hand is non-negative (what the source intends but does not enforce). */
  predicate NonNegative(s: Store) {
    forall p :: p in s.stock ==> s.stock[p].quantity >= 0
  }

  lemma EmptyConsistent()
    ensures Consistent(Empty)
  {
  }
}

=== FILE: form.dfy ===
/** How the routes read numbers out of form fields: Python's `str.isdigit`
    and `int(...)` on the submitted strings. */
module Form {
  import opened Wrappers

  /** `str.isdigit` on one character (ASCII digits only). */
  predicate IsDigit(c: char) {
    '0' <= c <= '9'
  }

  /** `s.isdigit()`: at least one character, and every character a digit. */
  predicate IsDigits(s: string) {
    |s| > 0 && forall i :: 0 <= i < |s| ==> IsDigit(s[i])
  }

  predicate AllDigits(s: string) {
    forall i :: 0 <= i < |s| ==> IsDigit(s[i])
  }

  function DigitValue(c: char): (d: nat)
    requires IsDigit(c)
    ensures d < 10
  {
    c as int - '0' as int
  }

  function DigitChar(d: nat): (c: char)
    requires d < 10
    ensures IsDigit(c) && DigitValue(c) == d
  {
    ('0' as int + d) as char
  }

  /** The number a run of decimal digits denotes, most significant digit first. */
  function DecimalValue(s: string): nat
    requires AllDigits(s)
    decreases |s|
  {
    if s == [] then 0 else 10 * DecimalValue(s[..|s| - 1]) + DigitValue(s[|s| - 1])
  }

  /** `int(s)` on a form field: an optional sign followed by at least one
      digit; any other text makes `int` raise, which is `None` here. */
  function ParseInt(s: string): Option<int> {
    if |s| > 0 && (s[0] == '-' || s[0] == '+') then
      if IsDigits(s[1..]) then
        var v: int := DecimalValue(s[1..]);
        Some(if s[0] == '-' then -v else v)
      else None
    else if IsDigits(s) then Some(DecimalValue(s))
    else None
  }

  /** The decimal text of a natural number, as a browser submits it. */
  function Decimal(n: nat): string
    decreases n
  {
    if n < 10 then [DigitChar(n)] else Decimal(n / 10) + [DigitChar(n % 10)]
  }

  /** One submitted row of a multi-line form: the product id and quantity
      values found at the same position of their two lists. */
  type Row = (string, string)

  function Min(a: int, b: int): int {
    if a < b then a else b
  }

  /** `zip(produtos_ids, quantidades)`: rows up to the shorter list. */
  function Zip(pids: seq<string>, qtys: seq<string>): (rows: seq<Row>)
    ensures |rows| == Min(|pids|, |qtys|)
    ensures forall i :: 0 <= i < |rows| ==> rows[i] == (pids[i], qtys[i])
  {
    seq(Min(|pids|, |qtys|), i requires 0 <= i < Min(|pids|, |qtys|) => (pids[i], qtys[i]))
  }

  /** A field that passes `isdigit` is read by `int` as its decimal value, so
      the two checks the sale route makes on a quantity agree. */
  lemma ParseDigits(s: string)
    requires IsDigits(s)
    ensures ParseInt(s) == Some(DecimalValue(s))
  {
  }

  /** Reading back the decimal text of a number gives the number. */
  lemma {:induction false} DecimalRoundTrip(n: nat)
    ensures IsDigits(Decimal(n)) && DecimalValue(Decimal(n)) == n
    ensures ParseInt(Decimal(n)) == Some(n)
  {
    if n >= 10 {
      DecimalRoundTrip(n / 10);
      var s := Decimal(n);
      assert s[..|s| - 1] == Decimal(n / 10);
    }
    ParseDigits(Decimal(n));
  }
}

=== FILE: inventory.dfy ===
/** The shop's database as a mutable object: the route handlers update its
    tables in place, and every method either commits all of its writes or,
    on a refusal or a failed commit, leaves every field as it was. Each
    method is proved to do exactly what the matching step function on a
    `Store` value says, and to keep the database invariant. */
module Shop {
  import opened Wrappers
  import opened Form
  import opened Models
  import opened Ledger
  import opened Database
  import opened Sales
  import opened Orders
  import opened Catalog

  /** The validation loop of `nova_venda`: prices each accepted row and
      accumulates the total, stopping at the first row that cannot be served. */
  method PriceRows(catalog: map<ProductId, Product>, stock: map<ProductId, Stock>, rows: seq<Row>)
    returns (r: Result<seq<SaleLine>, Error>, total: Cents)
    requires catalog.Keys <= stock.Keys
    ensures r == PlanSale(catalog, stock, rows)
    ensures r.Success? ==> total == SumLines(r.value)
  {
    var items: seq<SaleLine> := [];
    total := 0;
    var i := 0;
    while i < |rows|
      invariant 0 <= i <= |rows|
      invariant PlanSale(catalog, stock, rows[..i]) == Success(items)
      invariant total == SumLines(items)
    {
      var step := PriceRow(catalog, stock, rows[i]);
      if step.Failure? {
        PlanSaleStops(catalog, stock, rows, i, items);
        return Failure(step.error), total;
      }
      PlanSaleNext(catalog, stock, rows, i, items);
      if step.value.Some? {
        var line := step.value.value;
        assert (items + [line])[..|items|] == items;
        items := items + [line];
        total := total + line.unitPrice * line.quantity;
      }
      i := i + 1;
    }
    assert rows[..|rows|] == rows;
    r := Success(items);
  }

  /** The write loop of `nova_venda`: debits each line's quantity from its
      product's stock and appends its 'SAÍDA' movement. */
  method DebitLines(stock: map<ProductId, Stock>, ledger: seq<Movement>, items: seq<SaleLine>, user: UserId)
    returns (newStock: map<ProductId, Stock>, newLedger: seq<Movement>)
    requires forall k :: 0 <= k < |items| ==> items[k].product in stock
    ensures newStock == Apply(stock, SaleMovements(items, user))
    ensures newLedger == ledger + SaleMovements(items, user)
  {
    newStock := stock;
    newLedger := ledger;
    var j := 0;
    while j < |items|
      invariant 0 <= j <= |items|
      invariant newStock == Apply(stock, SaleMovements(items[..j], user))
      invariant newLedger == ledger + SaleMovements(items[..j], user)
    {
      var item := items[j];
      var m := Movement(item.product, Some(user), Saida, item.quantity);
      assert SaleMovements(items[..j + 1], user) == SaleMovements(items[..j], user) + [m];
      ApplyStep(stock, SaleMovements(items[..j], user), m);
      newStock := newStock[item.product := newStock[item.product].(quantity := newStock[item.product].quantity - item.quantity)];
      newLedger := newLedger + [m];
      j := j + 1;
    }
    assert items[..|items|] == items;
  }

  /** The loop of `novo_pedido`: turns the kept rows into order lines. */
  method ReadOrderRows(catalog: map<ProductId, Product>, rows: seq<Row>) returns (r: Result<seq<OrderLine>, Error>)
    ensures r == PlanOrder(catalog, rows)
  {
    var lines: seq<OrderLine> := [];
    var i := 0;
    while i < |rows|
      invariant 0 <= i <= |rows|
      invariant PlanOrder(catalog, rows[..i]) == Success(lines)
    {
      var step := OrderRow(catalog, rows[i]);
      if step.Failure? {
        PlanOrderStops(catalog, rows, i, lines);
        return Failure(step.error);
      }
      PlanOrderNext(catalog, rows, i, lines);
      if step.value.Some? {
        lines := lines + [step.value.value];
      }
      i := i + 1;
    }
    assert rows[..|rows|] == rows;
    r := Success(lines);
  }

  /** The loop of `receber_pedido`: credits each line's received quantity to
      its stock and appends its 'ENTRADA' movement, or fails at the first
      line whose quantity is missing or not a number. */
  /** One credited line of the receipt loop: the plan grows by the line's
      movement, if any, and the stock by that movement's quantity. */
  lemma CreditNext(lines: seq<OrderLine>, received: map<ProductId, string>, stock: map<ProductId, Stock>, user: UserId, i: nat, moves: seq<Movement>)
    requires i < |lines| && PlanReceipt(lines[..i], received, stock, user) == Success(moves)
    requires ReceiveLine(lines[i], received, stock, user).Success?
    ensures var step := ReceiveLine(lines[i], received, stock, user);
      && (step.value.None? ==> PlanReceipt(lines[..i + 1], received, stock, user) == Success(moves))
      && (step.value.Some? ==>
            var m := step.value.value;
            var before := Apply(stock, moves);
            && PlanReceipt(lines[..i + 1], received, stock, user) == Success(moves + [m])
            && m.product in before
            && Apply(stock, moves + [m]) == before[m.product := before[m.product].(quantity := before[m.product].quantity + m.quantity)])
  {
    PlanReceiptNext(lines, received, stock, user, i, moves);
    var step := ReceiveLine(lines[i], received, stock, user);
    if step.value.Some? {
      ApplyStep(stock, moves, step.value.value);
    }
  }

  method CreditLines(lines: seq<OrderLine>, received: map<ProductId, string>, stock: map<ProductId, Stock>, ledger: seq<Movement>, user: UserId)
    returns (r: Result<(map<ProductId, Stock>, seq<Movement>), Error>)
    ensures var plan := PlanReceipt(lines, received, stock, user);
      r == if plan.Failure? then Failure(plan.error) else Success((Apply(stock, plan.value), ledger + plan.value))
  {
    var newStock := stock;
    var newLedger := ledger;
    ghost var moves: seq<Movement> := [];
    var i := 0;
    while i < |lines|
      invariant 0 <= i <= |lines|
      invariant PlanReceipt(lines[..i], received, stock, user) == Success(moves)
      invariant newStock == Apply(stock, moves)
      invariant newLedger == ledger + moves
    {
      var step := ReceiveLine(lines[i], received, stock, user);
      if step.Failure? {
        PlanReceiptStops(lines, received, stock, user, i, moves);
        return Failure(step.error);
      }
      CreditNext(lines, received, stock, user, i, moves);
      if step.value.Some? {
        var m := step.value.value;
        newStock := newStock[m.product := newStock[m.product].(quantity := newStock[m.product].quantity + m.quantity)];
        newLedger := newLedger + [m];
        moves := moves + [m];
      }
      i := i + 1;
    }
    assert lines[..|lines|] == lines;
    r := Success((newStock, newLedger));
  }

  class Inventory {
    var catalog: map<ProductId, Product>
    var stock: map<ProductId, Stock>
    /** Each product's quantity at creation; the tables do not keep it, the proofs do. */
    ghost var opening: map<ProductId, int>
    var nextProduct: int
    var ledger: seq<Movement>
    var sales: seq<Sale>
    var orders: seq<Order>
    var messages: seq<Message>

    ghost function State(): Store
      reads this
    {
      Store(catalog, stock, opening, nextProduct, ledger, sales, orders, messages)
    }

    ghost predicate Valid()
      reads this
    {
      Consistent(State())
    }

    /** A fresh database: no products, no movements, no sales, no orders. */
    constructor()
      ensures Valid() && State() == Empty
    {
      catalog := map[];
      stock := map[];
      opening := map[];
      nextProduct := 1;
      ledger := [];
      sales := [];
      orders := [];
      messages := [];
      EmptyConsistent();
    }

    /** `nova_venda`: the validation loop prices every accepted row and
        accumulates the total, refusing the whole sale at the first row that
        cannot be served; the write loop then debits each line's stock and
        logs its 'SAÍDA' movement, and the commit fails on a repeated product. */
    method Sell(customer: Option<CustomerId>, payment: Option<PaymentId>, pids: seq<string>, qtys: seq<string>, user: UserId)
      returns (r: Result<SaleId, Error>)
      requires Valid()
      modifies this
      ensures Valid()
      ensures (State(), r) == SellStep(old(State()), customer, payment, pids, qtys, user)
    {
      ghost var s := State();
      if customer.None? {
        return Failure(NoCustomer);
      }
      if !HasAcceptedRow(pids, qtys) {
        return Failure(NoSaleLines);
      }
      var plan, total := PriceRows(catalog, stock, Zip(pids, qtys));
      if plan.Failure? {
        return Failure(plan.error);
      }
      var items := plan.value;
      if payment.None? {
        return Failure(NoPaymentMethod);
      }
      PlanSaleLines(catalog, stock, Zip(pids, qtys));
      assert forall k :: 0 <= k < |items| ==> LineFor(catalog, stock, AcceptedRows(Zip(pids, qtys))[k], items[k]);
      var newStock, newLedger := DebitLines(stock, ledger, items, user);
      if !DistinctProducts(items) {
        return Failure(DuplicateSaleLine);
      }
      SellStepCommits(s, customer.value, payment.value, pids, qtys, user, items);
      SellPreservesConsistency(s, customer, payment, pids, qtys, user);
      r := Success(|sales|);
      stock := newStock;
      ledger := newLedger;
      sales := sales + [Sale(customer.value, payment.value, total, items)];
      assert State() == SellStep(s, customer, payment, pids, qtys, user).0;
    }

    /** `novo_pedido`: reads the rows into order lines, skipping those
        without a positive quantity, then records the 'Pendente' order and
        its log message together. */
    method CreateOrder(supplier: Option<SupplierId>, pids: seq<string>, qtys: seq<string>) returns (r: Result<OrderId, Error>)
      requires Valid()
      modifies this
      ensures Valid()
      ensures (State(), r) == CreateOrderStep(old(State()), supplier, pids, qtys)
    {
      ghost var s := State();
      if supplier.None? || |pids| == 0 {
        return Failure(MissingSupplierOrProducts);
      }
      var plan := ReadOrderRows(catalog, Zip(pids, qtys));
      if plan.Failure? {
        return Failure(plan.error);
      }
      var lines := plan.value;
      r := Success(|orders|);
      orders := orders + [NewOrder(supplier.value, lines, None)];
      messages := messages + [Message(supplier.value, None)];
      assert State() == CreateOrderStep(s, supplier, pids, qtys).0;
      CreateOrderPreservesConsistency(s, supplier, pids, qtys);
    }

    /** `contatar_fornecedor`: a one-line 'Pendente' restock order for a
        product that has a supplier, for a positive quantity. */
    method ContactSupplier(product: ProductId, qty: string) returns (r: Result<OrderId, Error>)
      requires Valid()
      modifies this
      ensures Valid()
      ensures (State(), r) == ContactSupplierStep(old(State()), product, qty)
    {
      ghost var s := State();
      if product !in catalog {
        return Failure(UnknownProduct(product));
      }
      var supplier := catalog[product].supplier;
      if supplier.None? {
        return Failure(NoSupplier);
      }
      if |qty| == 0 {
        return Failure(NonPositiveQuantity);
      }
      var q := ParseInt(qty);
      if q.None? {
        return Failure(MalformedNumber);
      }
      if q.value <= 0 {
        return Failure(NonPositiveQuantity);
      }
      r := Success(|orders|);
      orders := orders + [NewOrder(supplier.value, [OrderLine(product, q.value)], Some(Pending))];
      messages := messages + [Message(supplier.value, Some(product))];
      assert State() == ContactSupplierStep(s, product, qty).0;
      ContactSupplierPreservesConsistency(s, product, qty);
    }

    /** `receber_pedido`: for a 'Pendente' order, credits each line's
        received quantity to stock with an 'ENTRADA' movement, then marks the
        order 'Recebido'; a missing or malformed quantity rolls all of it back. */
    method ReceiveOrder(id: int, received: map<ProductId, string>, user: UserId) returns (r: Result<OrderId, Error>)
      requires Valid()
      modifies this
      ensures Valid()
      ensures (State(), r) == ReceiveStep(old(State()), id, received, user)
    {
      ghost var s := State();
      if !(0 <= id < |orders|) {
        return Failure(UnknownOrder);
      }
      if orders[id].status != Pending {
        return Failure(AlreadyProcessed);
      }
      var credit := CreditLines(orders[id].lines, received, stock, ledger, user);
      if credit.Failure? {
        return Failure(credit.error);
      }
      var (newStock, newLedger) := credit.value;
      stock := newStock;
      ledger := newLedger;
      orders := orders[id := orders[id].(status := Received)];
      r := Success(id);
      assert State() == ReceiveStep(s, id, received, user).0;
      ReceivePreservesConsistency(s, id, received, user);
    }

    /** `api_produto_update`: sets a product's quantity to an absolute value
        and logs the signed difference as 'AJUSTE MANUAL'. */
    method Adjust(product: Option<ProductId>, quantity: Option<int>, user: UserId) returns (r: Result<ProductId, Error>)
      requires Valid()
      modifies this
      ensures Valid()
      ensures (State(), r) == AdjustStep(old(State()), product, quantity, user)
    {
      ghost var s := State();
      if product.None? || quantity.None? {
        return Failure(InvalidData);
      }
      var p := product.value;
      if p !in catalog || p !in stock {
        return Failure(UnknownProduct(p));
      }
      var previous := stock[p].quantity;
      stock := stock[p := stock[p].(quantity := quantity.value)];
      ledger := ledger + [Movement(p, Some(user), AjusteManual, quantity.value - previous)];
      r := Success(p);
      assert State() == AdjustStep(s, product, quantity, user).0;
      AdjustPreservesConsistency(s, product, quantity, user);
    }

    /** `novo_produto`: a product with its opening stock and no movement. */
    method AddProduct(name: string, price: Option<Cents>, quantity: string, firstSupplier: Option<SupplierId>) returns (r: Result<ProductId, Error>)
      requires Valid()
      modifies this
      ensures Valid()
      ensures (State(), r) == AddProductStep(old(State()), name, price, quantity, firstSupplier)
    {
      ghost var s := State();
      if |name| == 0 || price.None? || |quantity| == 0 {
        return Failure(InvalidData);
      }
      var q := ParseInt(quantity);
      if q.None? {
        return Failure(MalformedNumber);
      }
      if firstSupplier.None? {
        return Failure(NoSupplier);
      }
      var id := nextProduct;
      catalog := catalog[id := Product(price.value, None, firstSupplier)];
      stock := stock[id := NewStock(Some(q.value), Some(1))];
      opening := opening[id := q.value];
      nextProduct := id + 1;
      r := Success(id);
      assert State() == AddProductStep(s, name, price, quantity, firstSupplier).0;
      AddProductPreservesConsistency(s, name, price, quantity, firstSupplier);
    }

    /** `criar_promocao`: stores a positive promotional price, clears it otherwise. */
    method SetPromotion(product: ProductId, promo: Option<Cents>) returns (r: Result<ProductId, Error>)
      requires Valid()
      modifies this
      ensures Valid()
      ensures (State(), r) == SetPromotionStep(old(State()), product, promo)
    {
      ghost var s := State();
      if product !in catalog {
        return Failure(UnknownProduct(product));
      }
      if promo.Some? && promo.value > 0 {
        catalog := catalog[product := catalog[product].(promoPrice := promo)];
      } else {
        catalog := catalog[product := catalog[product].(promoPrice := None)];
      }
      r := Success(product);
      assert State() == SetPromotionStep(s, product, promo).0;
      SetPromotionPreservesConsistency(s, product, promo);
    }
  }
}

=== FILE: ledger.dfy ===
/** The stock ledger: every change of a product's quantity is paired with a
    movement row, so the quantity on hand is the opening quantity plus the
    signed sum of that product's movements. */
module Ledger {
  import opened Models

  /** The signed change a movement records. A 'SAÍDA' row stores the sold
      quantity as a positive number, so it counts negatively; 'ENTRADA' and
      'AJUSTE MANUAL' rows store the change itself. */
  function SignedDelta(m: Movement): int {
    if m.kind == Saida then -m.quantity else m.quantity
  }

  /** The signed sum of the movements of product `p`. */
  function Net(moves: seq<Movement>, p: ProductId): int
    decreases |moves|
  {
    if moves == [] then 0
    else
      var last := moves[|moves| - 1];
      Net(moves[..|moves| - 1], p) + (if last.product == p then SignedDelta(last) else 0)
  }

  /** The quantities after the movements, taken one at a time in order: each
      moves its own product's quantity by its signed amount; a movement for a
      product without a stock row changes nothing. */
  function Apply(stock: map<ProductId, Stock>, moves: seq<Movement>): (r: map<ProductId, Stock>)
    ensures r.Keys == stock.Keys
    decreases |moves|
  {
    if moves == [] then stock
    else
      var before := Apply(stock, moves[..|moves| - 1]);
      var m := moves[|moves| - 1];
      if m.product in before then before[m.product := before[m.product].(quantity := before[m.product].quantity + SignedDelta(m))]
      else before
  }

  /** Quantities agree with the ledger: each is its opening quantity (set
      when the product was created, with no movement) plus its net movement. */
  predicate Balanced(stock: map<ProductId, Stock>, opening: map<ProductId, int>, ledger: seq<Movement>) {
    && opening.Keys == stock.Keys
    && forall p :: p in stock ==> stock[p].quantity == opening[p] + Net(ledger, p)
  }

  lemma {:induction false} NetAppend(a: seq<Movement>, b: seq<Movement>, p: ProductId)
    ensures Net(a + b, p) == Net(a, p) + Net(b, p)
    decreases |b|
  {
    if b == [] {
      assert a + b == a;
    } else {
      assert (a + b)[..|a + b| - 1] == a + b[..|b| - 1];
      NetAppend(a, b[..|b| - 1], p);
    }
  }

  /** A product no movement names has net movement zero. */
  lemma {:induction false} NetOfUnnamed(moves: seq<Movement>, p: ProductId)
    requires forall i :: 0 <= i < |moves| ==> moves[i].product != p
    ensures Net(moves, p) == 0
    decreases |moves|
  {
    if moves != [] {
      NetOfUnnamed(moves[..|moves| - 1], p);
    }
  }

  /** Applying the movements one at a time moves every quantity by the
      signed sum of its product's movements, and changes nothing else. */
  lemma {:induction false} ApplyNet(stock: map<ProductId, Stock>, moves: seq<Movement>, p: ProductId)
    requires p in stock
    ensures Apply(stock, moves)[p] == stock[p].(quantity := stock[p].quantity + Net(moves, p))
    decreases |moves|
  {
    if moves != [] {
      ApplyNet(stock, moves[..|moves| - 1], p);
    }
  }

  /** Applying one more movement changes only its own product, by its signed quantity. */
  lemma ApplyStep(stock: map<ProductId, Stock>, moves: seq<Movement>, m: Movement)
    requires m.product in stock
    ensures
      var before := Apply(stock, moves);
      Apply(stock, moves + [m]) == before[m.product := before[m.product].(quantity := before[m.product].quantity + SignedDelta(m))]
  {
    assert (moves + [m])[..|moves|] == moves;
  }

  /** Applying movements in two batches is applying them all at once. */
  lemma ApplyComposes(stock: map<ProductId, Stock>, a: seq<Movement>, b: seq<Movement>)
    ensures Apply(Apply(stock, a), b) == Apply(stock, a + b)
  {
    forall p | p in stock
      ensures Apply(Apply(stock, a), b)[p] == Apply(stock, a + b)[p]
    {
      ApplyNet(stock, a, p);
      ApplyNet(Apply(stock, a), b, p);
      ApplyNet(stock, a + b, p);
      NetAppend(a, b, p);
    }
  }

  /** The ledger guarantee: a change that moves the quantities by a batch of
      movements and appends the same batch to the ledger keeps them in agreement. */
  lemma CommitKeepsBalance(stock: map<ProductId, Stock>, opening: map<ProductId, int>, ledger: seq<Movement>, moves: seq<Movement>)
    requires Balanced(stock, opening, ledger)
    ensures Balanced(Apply(stock, moves), opening, ledger + moves)
  {
    forall p | p in stock
      ensures Apply(stock, moves)[p].quantity == opening[p] + Net(ledger + moves, p)
    {
      ApplyNet(stock, moves, p);
      NetAppend(ledger, moves, p);
    }
  }
}

=== FILE: models.dfy ===
/** The records the stock-and-sale logic reads and writes, one datatype per
    table (timestamps, names and free text left out). Money is in whole cents,
    since the price and total columns are decimals with two places. */
module Models {
  import opened Wrappers

  type ProductId = int
  type SupplierId = int
  type CustomerId = int
  type PaymentId = int
  type UserId = int

  /** Sales and supplier orders are identified by their position in the store. */
  type SaleId = nat
  type OrderId = nat

  type Cents = int

  /** `Estoque`: quantity on hand and restock threshold. */
  datatype Stock = Stock(quantity: int, minimum: int)

  /** `Produto`: base price, optional promotional price, optional supplier.
      Its single `Estoque` row is the store's stock entry under the same id. */
  datatype Product = Product(price: Cents, promoPrice: Option<Cents>, supplier: Option<SupplierId>)

  /** `ProdutoVenda`: one product of a sale, with the unit price charged. */
  datatype SaleLine = SaleLine(product: ProductId, quantity: int, unitPrice: Cents)

  /** `Venda`: customer, payment method, total and the lines sold. */
  datatype Sale = Sale(customer: CustomerId, payment: PaymentId, total: Cents, lines: seq<SaleLine>)

  datatype OrderStatus = Pending | Received

  /** `PedidoProduto`: a product and the quantity ordered. */
  datatype OrderLine = OrderLine(product: ProductId, quantity: int)

  /** `PedidoFornecedor`: supplier, status ('Pendente' or 'Recebido') and lines. */
  datatype Order = Order(supplier: SupplierId, status: OrderStatus, lines: seq<OrderLine>)

  /** The `tipo` of a movement: 'ENTRADA', 'SAÍDA' or 'AJUSTE MANUAL'. */
  datatype MovementKind = Entrada | Saida | AjusteManual

  /** `MovimentacaoEstoque`: product, acting user (nullable), kind and quantity. */
  datatype Movement = Movement(product: ProductId, user: Option<UserId>, kind: MovementKind, quantity: int)

  /** `Mensagem`: a log entry about a supplier and possibly one product. */
  datatype Message = Message(supplier: SupplierId, product: Option<ProductId>)

  /** A new `Estoque` row; a column not given takes its default. */
  function NewStock(quantity: Option<int>, minimum: Option<int>): Stock {
    Stock(if quantity.Some? then quantity.value else 0, if minimum.Some? then minimum.value else 1)
  }

  /** A new `PedidoFornecedor` row; the status defaults to 'Pendente'. */
  function NewOrder(supplier: SupplierId, lines: seq<OrderLine>, status: Option<OrderStatus>): Order {
    Order(supplier, if status.Some? then status.value else Pending, lines)
  }

  /** The amount a sale line charges. */
  function LineAmount(line: SaleLine): Cents {
    line.unitPrice * line.quantity
  }

  /** The sum of unit price times quantity over the lines. */
  function SumLines(lines: seq<SaleLine>): Cents
    decreases |lines|
  {
    if lines == [] then 0 else SumLines(lines[..|lines| - 1]) + LineAmount(lines[|lines| - 1])
  }

  /** The primary key of `ProdutoVenda` is (product, sale): no product twice in one sale. */
  predicate DistinctProducts(lines: seq<SaleLine>) {
    forall i, j :: 0 <= i < j < |lines| ==> lines[i].product != lines[j].product
  }

  /** A stock record created without values holds 0 units with minimum 1. */
  lemma StockDefaults()
    ensures NewStock(None, None) == Stock(0, 1)
    ensures forall q :: NewStock(Some(q), None) == Stock(q, 1)
  {
  }

  /** A supplier order created without a status is 'Pendente'. */
  lemma OrderDefaults(supplier: SupplierId, lines: seq<OrderLine>)
    ensures NewOrder(supplier, lines, None) == Order(supplier, Pending, lines)
  {
  }
}

=== FILE: orders.dfy ===
/** Supplier orders: creating one from the order form (`novo_pedido`) or
    from a product's restock page (`contatar_fornecedor`), and receiving it
    (`receber_pedido`), the one-shot 'Pendente' to 'Recebido' transition that
    credits the received quantities to stock with 'ENTRADA' movements. */
module Orders {
  import opened Wrappers
  import opened Form
  import opened Models
  import opened Ledger
  import opened Database

  /** A row the order loop keeps: a product id, and a quantity that is a
      positive number. Empty fields are skipped before `int` is applied. */
  predicate OrderRowKept(row: Row) {
    |row.0| > 0 && |row.1| > 0 && ParseInt(row.1).Some? && ParseInt(row.1).value > 0
  }

  /** The rows the order loop keeps, in order. */
  function KeptOrderRows(rows: seq<Row>): (kept: seq<Row>)
    ensures forall i :: 0 <= i < |kept| ==> OrderRowKept(kept[i])
    decreases |rows|
  {
    if rows == [] then []
    else KeptOrderRows(rows[..|rows| - 1]) + (if OrderRowKept(rows[|rows| - 1]) then [rows[|rows| - 1]] else [])
  }

  /** The order loop keeps a row exactly when it is `OrderRowKept`, in order:
      the filter distributes over concatenation and keeps a single row iff
      it passes the test. */
  lemma {:induction false} KeptOrderRowsFilters(a: seq<Row>, b: seq<Row>, row: Row)
    ensures KeptOrderRows(a + b) == KeptOrderRows(a) + KeptOrderRows(b)
    ensures KeptOrderRows([row]) == if OrderRowKept(row) then [row] else []
    decreases |b|
  {
    if b == [] {
      assert a + b == a;
    } else {
      var init, last := b[..|b| - 1], b[|b| - 1];
      var tail := if OrderRowKept(last) then [last] else [];
      assert (a + b)[..|a + b| - 1] == a + init;
      assert (a + b)[|a + b| - 1] == last;
      calc {
        KeptOrderRows(a + b);
        KeptOrderRows(a + init) + tail;
        { KeptOrderRowsFilters(a, init, row); }
        (KeptOrderRows(a) + KeptOrderRows(init)) + tail;
        KeptOrderRows(a) + (KeptOrderRows(init) + tail);
        KeptOrderRows(a) + KeptOrderRows(b);
      }
    }
    assert [row][..0] == [];
  }

  /** The order line built from a kept row: its product, a known one, and its positive quantity. */
  predicate OrderLineFor(catalog: map<ProductId, Product>, row: Row, line: OrderLine) {
    && ParseInt(row.0) == Some(line.product)
    && ParseInt(row.1) == Some(line.quantity)
    && line.quantity > 0
    && line.product in catalog
  }

  /** A row that fails the whole order request: both fields are filled, and
      either the quantity is not a number, or it is positive and the product
      id is not a number or names no product. */
  predicate OrderRowFails(catalog: map<ProductId, Product>, row: Row) {
    && |row.0| > 0 && |row.1| > 0
    && (|| ParseInt(row.1).None?
        || (ParseInt(row.1).value > 0 && (ParseInt(row.0).None? || ParseInt(row.0).value !in catalog)))
  }

  /** One row of the loop of `novo_pedido`: a row with an empty field is
      skipped; a quantity that is not a number fails the request; a quantity
      of zero or less is skipped; a kept row whose product id is not a number
      or names no product fails the request; any other row becomes an order
      line. */
  function OrderRow(catalog: map<ProductId, Product>, row: Row): (r: Result<Option<OrderLine>, Error>)
    ensures r.Failure? <==> OrderRowFails(catalog, row)
    ensures r.Success? ==> (r.value.None? <==> !OrderRowKept(row))
    ensures r.Success? && r.value.Some? ==> OrderLineFor(catalog, row, r.value.value)
  {
    if |row.0| == 0 || |row.1| == 0 then Success(None)
    else
      match ParseInt(row.1)
      case None => Failure(MalformedNumber)
      case Some(q) =>
        if q <= 0 then Success(None)
        else
          match ParseInt(row.0)
          case None => Failure(MalformedNumber)
          case Some(p) =>
            if p !in catalog then Failure(UnknownProduct(p))
            else Success(Some(OrderLine(p, q)))
  }

  /** The loop of `novo_pedido`: the rows in order, stopping at the first
      that fails the request. */
  function PlanOrder(catalog: map<ProductId, Product>, rows: seq<Row>): (r: Result<seq<OrderLine>, Error>)
    ensures r.Success? ==> |r.value| == |KeptOrderRows(rows)|
    ensures r.Success? ==> forall i :: 0 <= i < |r.value| ==> OrderLineFor(catalog, KeptOrderRows(rows)[i], r.value[i])
    decreases |rows|
  {
    if rows == [] then Success([])
    else
      match PlanOrder(catalog, rows[..|rows| - 1])
      case Failure(e) => Failure(e)
      case Success(lines) =>
        match OrderRow(catalog, rows[|rows| - 1])
        case Failure(e) => Failure(e)
        case Success(None) => Success(lines)
        case Success(Some(line)) => Success(lines + [line])
  }

  /** Once the order loop has failed at some row, the later rows do not matter. */
  lemma {:induction false} PlanOrderFailureSticks(catalog: map<ProductId, Product>, rows: seq<Row>, i: nat)
    requires i <= |rows| && PlanOrder(catalog, rows[..i]).Failure?
    ensures PlanOrder(catalog, rows) == PlanOrder(catalog, rows[..i])
    decreases |rows|
  {
    if i == |rows| {
      assert rows[..i] == rows;
    } else {
      var prefix := rows[..|rows| - 1];
      assert prefix[..i] == rows[..i];
      PlanOrderFailureSticks(catalog, prefix, i);
    }
  }

  /** The order loop succeeds exactly when no row fails the request. */
  lemma {:induction false} PlanOrderSucceedsIff(catalog: map<ProductId, Product>, rows: seq<Row>)
    ensures PlanOrder(catalog, rows).Success? <==> forall i :: 0 <= i < |rows| ==> !OrderRowFails(catalog, rows[i])
    decreases |rows|
  {
    if rows != [] {
      var prefix := rows[..|rows| - 1];
      PlanOrderSucceedsIff(catalog, prefix);
      assert forall i :: 0 <= i < |prefix| ==> prefix[i] == rows[i];
    }
  }

  /** One more row of the loop of `novo_pedido`. */
  lemma PlanOrderNext(catalog: map<ProductId, Product>, rows: seq<Row>, i: nat, lines: seq<OrderLine>)
    requires i < |rows| && PlanOrder(catalog, rows[..i]) == Success(lines)
    ensures
      var step := OrderRow(catalog, rows[i]);
      PlanOrder(catalog, rows[..i + 1]) ==
        if step.Failure? then Failure(step.error)
        else if step.value.None? then Success(lines)
        else Success(lines + [step.value.value])
  {
    assert rows[..i + 1][..i] == rows[..i];
  }

  /** A row that fails the request ends the loop with its error. */
  lemma PlanOrderStops(catalog: map<ProductId, Product>, rows: seq<Row>, i: nat, lines: seq<OrderLine>)
    requires i < |rows| && PlanOrder(catalog, rows[..i]) == Success(lines)
    requires OrderRow(catalog, rows[i]).Failure?
    ensures PlanOrder(catalog, rows) == Failure(OrderRow(catalog, rows[i]).error)
  {
    PlanOrderNext(catalog, rows, i, lines);
    PlanOrderFailureSticks(catalog, rows, i + 1);
  }

  /** `novo_pedido`: needs a supplier and at least one product field; creates
      a 'Pendente' order with the kept rows as lines and appends one log
      message. Stock and the ledger are untouched. */
  function CreateOrderStep(s: Store, supplier: Option<SupplierId>, pids: seq<string>, qtys: seq<string>): (r: (Store, Result<OrderId, Error>))
    ensures r.1.Failure? ==> r.0 == s
    ensures r.1.Success? <==> supplier.Some? && |pids| > 0 && PlanOrder(s.catalog, Zip(pids, qtys)).Success?
    ensures r.1.Success? ==> r.0.orders == s.orders + [Order(supplier.value, Pending, PlanOrder(s.catalog, Zip(pids, qtys)).value)]
    ensures r.1.Success? ==>
      && r.1.value == |s.orders|
      && |r.0.orders| == |s.orders| + 1 && r.0.orders[..|s.orders|] == s.orders
      && r.0.orders[|s.orders|].status == Pending && r.0.orders[|s.orders|].supplier == supplier.value
      && r.0.messages == s.messages + [Message(supplier.value, None)]
    ensures r.0.catalog == s.catalog && r.0.stock == s.stock && r.0.opening == s.opening
    ensures r.0.nextProduct == s.nextProduct && r.0.ledger == s.ledger && r.0.sales == s.sales
  {
    if supplier.None? || |pids| == 0 then (s, Failure(MissingSupplierOrProducts))
    else
      match PlanOrder(s.catalog, Zip(pids, qtys))
      case Failure(e) => (s, Failure(e))
      case Success(lines) =>
        var order := NewOrder(supplier.value, lines, None);
        (s.(orders := s.orders + [order], messages := s.messages + [Message(supplier.value, None)]), Success(|s.orders|))
  }

  /** `contatar_fornecedor`: a restock order for one product. The product must
      exist and have a supplier, and the quantity must be a number above 0;
      the order has that single line and starts 'Pendente'. */
  function ContactSupplierStep(s: Store, product: ProductId, qty: string): (r: (Store, Result<OrderId, Error>))
    ensures r.1.Failure? ==> r.0 == s
    ensures r.1.Success? <==>
      && product in s.catalog && s.catalog[product].supplier.Some?
      && ParseInt(qty).Some? && ParseInt(qty).value > 0
    ensures r.1.Success? ==>
      var supplier := s.catalog[product].supplier.value;
      && r.1.value == |s.orders|
      && r.0.orders == s.orders + [Order(supplier, Pending, [OrderLine(product, ParseInt(qty).value)])]
      && r.0.messages == s.messages + [Message(supplier, Some(product))]
    ensures r.0.catalog == s.catalog && r.0.stock == s.stock && r.0.opening == s.opening
    ensures r.0.nextProduct == s.nextProduct && r.0.ledger == s.ledger && r.0.sales == s.sales
  {
    if product !in s.catalog then (s, Failure(UnknownProduct(product)))
    else if s.catalog[product].supplier.None? then (s, Failure(NoSupplier))
    else if |qty| == 0 then (s, Failure(NonPositiveQuantity))
    else
      match ParseInt(qty)
      case None => (s, Failure(MalformedNumber))
      case Some(q) =>
        if q <= 0 then (s, Failure(NonPositiveQuantity))
        else
          var supplier := s.catalog[product].supplier.value;
          var order := NewOrder(supplier, [OrderLine(product, q)], Some(Pending));
          (s.(orders := s.orders + [order], messages := s.messages + [Message(supplier, Some(product))]), Success(|s.orders|))
  }

  /** The quantity the receipt form gives for a product: `int` of its
      `qty_<id>` field, or nothing when the field is missing or not a number. */
  function ReceivedQuantity(received: map<ProductId, string>, p: ProductId): Option<int> {
    if p in received then ParseInt(received[p]) else None
  }

  function ProductsOf(lines: seq<OrderLine>): set<ProductId> {
    set i | 0 <= i < |lines| :: lines[i].product
  }

  /** The total a receipt credits to product `p`: the received quantity of
      every line for `p` whose quantity is not negative. */
  function Credited(lines: seq<OrderLine>, received: map<ProductId, string>, p: ProductId): int
    decreases |lines|
  {
    if lines == [] then 0
    else
      var line := lines[|lines| - 1];
      var q := ReceivedQuantity(received, line.product);
      Credited(lines[..|lines| - 1], received, p) + (if line.product == p && q.Some? && q.value >= 0 then q.value else 0)
  }

  /** A line the receipt credits: its received quantity is a number of 0 or
      more, and its product has a stock record. */
  predicate Credits(line: OrderLine, received: map<ProductId, string>, stock: map<ProductId, Stock>) {
    ReceivedQuantity(received, line.product).Some? && ReceivedQuantity(received, line.product).value >= 0 && line.product in stock
  }

  /** The lines a receipt credits, in order. */
  function CreditedLines(lines: seq<OrderLine>, received: map<ProductId, string>, stock: map<ProductId, Stock>): (kept: seq<OrderLine>)
    ensures forall i :: 0 <= i < |kept| ==> Credits(kept[i], received, stock)
    decreases |lines|
  {
    if lines == [] then []
    else
      var last := lines[|lines| - 1];
      CreditedLines(lines[..|lines| - 1], received, stock) + (if Credits(last, received, stock) then [last] else [])
  }

  /** One line of the loop of `receber_pedido`: a missing or non-numeric
      received quantity is an error; a quantity of 0 or more for a product
      that has a stock record yields one 'ENTRADA' movement; a negative
      quantity, or a product without stock, yields none. */
  function ReceiveLine(line: OrderLine, received: map<ProductId, string>, stock: map<ProductId, Stock>, user: UserId): (r: Result<Option<Movement>, Error>)
    ensures r.Failure? <==> ReceivedQuantity(received, line.product).None?
    ensures r.Success? ==> (r.value.Some? <==> Credits(line, received, stock))
    ensures r.Success? && r.value.Some? ==>
      r.value.value == Movement(line.product, Some(user), Entrada, ReceivedQuantity(received, line.product).value)
      && r.value.value.quantity >= 0 && line.product in stock
  {
    match ReceivedQuantity(received, line.product)
    case None =>
      if line.product in received then Failure(MalformedNumber) else Failure(MissingReceivedQuantity(line.product))
    case Some(q) =>
      if q >= 0 && line.product in stock then Success(Some(Movement(line.product, Some(user), Entrada, q)))
      else Success(None)
  }

  /** The loop of `receber_pedido`: the lines in order, stopping at the first
      error; the movements of the lines, in order, otherwise. */
  function PlanReceipt(lines: seq<OrderLine>, received: map<ProductId, string>, stock: map<ProductId, Stock>, user: UserId): (r: Result<seq<Movement>, Error>)
    decreases |lines|
  {
    if lines == [] then Success([])
    else
      match PlanReceipt(lines[..|lines| - 1], received, stock, user)
      case Failure(e) => Failure(e)
      case Success(moves) =>
        match ReceiveLine(lines[|lines| - 1], received, stock, user)
        case Failure(e) => Failure(e)
        case Success(None) => Success(moves)
        case Success(Some(m)) => Success(moves + [m])
  }

  /** The receipt loop succeeds exactly when every line has a numeric
      received quantity, and then writes only 'ENTRADA' movements of a
      non-negative quantity, by the acting user, for products with stock. */
  lemma {:induction false} PlanReceiptShape(lines: seq<OrderLine>, received: map<ProductId, string>, stock: map<ProductId, Stock>, user: UserId)
    ensures PlanReceipt(lines, received, stock, user).Success? <==>
      forall i :: 0 <= i < |lines| ==> ReceivedQuantity(received, lines[i].product).Some?
    ensures var r := PlanReceipt(lines, received, stock, user);
      r.Success? ==> forall k :: 0 <= k < |r.value| ==>
        && r.value[k].kind == Entrada && r.value[k].quantity >= 0 && r.value[k].user == Some(user)
        && r.value[k].product in stock
    decreases |lines|
  {
    if lines != [] {
      var prefix := lines[..|lines| - 1];
      PlanReceiptShape(prefix, received, stock, user);
      assert forall i :: 0 <= i < |prefix| ==> prefix[i] == lines[i];
    }
  }

  /** A successful receipt writes one 'ENTRADA' movement per credited line,
      in the order of the lines, for that line's product and received
      quantity, by the acting user. */
  lemma {:induction false} PlanReceiptMovements(lines: seq<OrderLine>, received: map<ProductId, string>, stock: map<ProductId, Stock>, user: UserId)
    requires PlanReceipt(lines, received, stock, user).Success?
    ensures var moves := PlanReceipt(lines, received, stock, user).value;
      var credited := CreditedLines(lines, received, stock);
      && |moves| == |credited|
      && forall k :: 0 <= k < |moves| ==>
           moves[k] == Movement(credited[k].product, Some(user), Entrada, ReceivedQuantity(received, credited[k].product).value)
    decreases |lines|
  {
    if lines != [] {
      var prefix, last := lines[..|lines| - 1], lines[|lines| - 1];
      PlanReceiptMovements(prefix, received, stock, user);
      var moves := PlanReceipt(prefix, received, stock, user).value;
      var credited := CreditedLines(prefix, received, stock);
      var step := ReceiveLine(last, received, stock, user);
      if Credits(last, received, stock) {
        var m := Movement(last.product, Some(user), Entrada, ReceivedQuantity(received, last.product).value);
        assert step == Success(Some(m));
        assert PlanReceipt(lines, received, stock, user).value == moves + [m];
        assert CreditedLines(lines, received, stock) == credited + [last];
      } else {
        assert PlanReceipt(lines, received, stock, user).value == moves;
        assert CreditedLines(lines, received, stock) == credited;
      }
    }
  }

  /** Every movement a receipt writes is for a product of the order. */
  lemma {:induction false} ReceiptMovesOrderProducts(lines: seq<OrderLine>, received: map<ProductId, string>, stock: map<ProductId, Stock>, user: UserId)
    requires PlanReceipt(lines, received, stock, user).Success?
    ensures var moves := PlanReceipt(lines, received, stock, user).value;
      forall k :: 0 <= k < |moves| ==> moves[k].product in ProductsOf(lines)
    decreases |lines|
  {
    if lines != [] {
      var prefix := lines[..|lines| - 1];
      ReceiptMovesOrderProducts(prefix, received, stock, user);
      assert forall i :: 0 <= i < |prefix| ==> prefix[i] == lines[i];
      assert ProductsOf(prefix) <= ProductsOf(lines);
      assert lines[|lines| - 1].product in ProductsOf(lines);
    }
  }

  /** Once the receipt loop has failed at some line, the later lines do not matter. */
  lemma {:induction false} PlanReceiptFailureSticks(lines: seq<OrderLine>, received: map<ProductId, string>, stock: map<ProductId, Stock>, user: UserId, i: nat)
    requires i <= |lines| && PlanReceipt(lines[..i], received, stock, user).Failure?
    ensures PlanReceipt(lines, received, stock, user) == PlanReceipt(lines[..i], received, stock, user)
    decreases |lines|
  {
    if i == |lines| {
      assert lines[..i] == lines;
    } else {
      var prefix := lines[..|lines| - 1];
      assert prefix[..i] == lines[..i];
      PlanReceiptFailureSticks(prefix, received, stock, user, i);
    }
  }

  /** One more line of the receipt loop. */
  lemma PlanReceiptNext(lines: seq<OrderLine>, received: map<ProductId, string>, stock: map<ProductId, Stock>, user: UserId, i: nat, moves: seq<Movement>)
    requires i < |lines| && PlanReceipt(lines[..i], received, stock, user) == Success(moves)
    ensures
      var step := ReceiveLine(lines[i], received, stock, user);
      PlanReceipt(lines[..i + 1], received, stock, user) ==
        if step.Failure? then Failure(step.error)
        else if step.value.None? then Success(moves)
        else Success(moves + [step.value.value])
  {
    assert lines[..i + 1][..i] == lines[..i];
  }

  /** A line whose received quantity is missing or malformed fails the whole receipt. */
  lemma PlanReceiptStops(lines: seq<OrderLine>, received: map<ProductId, string>, stock: map<ProductId, Stock>, user: UserId, i: nat, moves: seq<Movement>)
    requires i < |lines| && PlanReceipt(lines[..i], received, stock, user) == Success(moves)
    requires ReceiveLine(lines[i], received, stock, user).Failure?
    ensures PlanReceipt(lines, received, stock, user) == Failure(ReceiveLine(lines[i], received, stock, user).error)
  {
    PlanReceiptNext(lines, received, stock, user, i, moves);
    PlanReceiptFailureSticks(lines, received, stock, user, i + 1);
  }

  /** `receber_pedido`: only a 'Pendente' order can be received. All lines
      are credited and the order becomes 'Recebido' in one commit; any failure
      rolls everything back. */
  function ReceiveStep(s: Store, id: int, received: map<ProductId, string>, user: UserId): (r: (Store, Result<OrderId, Error>))
    ensures r.1.Failure? ==> r.0 == s
    ensures r.1.Success? <==>
      0 <= id < |s.orders| && s.orders[id].status == Pending && PlanReceipt(s.orders[id].lines, received, s.stock, user).Success?
    ensures 0 <= id < |s.orders| && s.orders[id].status != Pending ==> r == (s, Failure(AlreadyProcessed))
    ensures r.1.Success? ==>
      && 0 <= id < |s.orders| && r.1.value == id && s.orders[id].status == Pending
      && r.0.orders == s.orders[id := s.orders[id].(status := Received)]
    ensures r.0.catalog == s.catalog && r.0.opening == s.opening && r.0.nextProduct == s.nextProduct
    ensures r.0.sales == s.sales && r.0.messages == s.messages
  {
    if !(0 <= id < |s.orders|) then (s, Failure(UnknownOrder))
    else if s.orders[id].status != Pending then (s, Failure(AlreadyProcessed))
    else
      match PlanReceipt(s.orders[id].lines, received, s.stock, user)
      case Failure(e) => (s, Failure(e))
      case Success(moves) =>
        (s.(stock := Apply(s.stock, moves), ledger := s.ledger + moves,
            orders := s.orders[id := s.orders[id].(status := Received)]), Success(id))
  }

  /** A receipt of a 'Pendente' order whose lines all parse commits exactly
      the stock credits, the ledger entries and the status flip, at once. */
  lemma ReceiveStepCommits(s: Store, id: int, received: map<ProductId, string>, user: UserId, moves: seq<Movement>)
    requires 0 <= id < |s.orders| && s.orders[id].status == Pending
    requires PlanReceipt(s.orders[id].lines, received, s.stock, user) == Success(moves)
    ensures ReceiveStep(s, id, received, user) ==
      (s.(stock := Apply(s.stock, moves), ledger := s.ledger + moves,
          orders := s.orders[id := s.orders[id].(status := Received)]), Success(id))
  {
  }

  /** An order is received at most once: after a successful receipt, any
      further receipt of it is refused and changes nothing. */
  lemma ReceiveAtMostOnce(s: Store, id: int, first: map<ProductId, string>, second: map<ProductId, string>, u1: UserId, u2: UserId)
    ensures
      var (t, r) := ReceiveStep(s, id, first, u1);
      r.Success? ==> ReceiveStep(t, id, second, u2) == (t, Failure(AlreadyProcessed))
  {
  }

  lemma {:induction false} NetOfReceipt(lines: seq<OrderLine>, received: map<ProductId, string>, stock: map<ProductId, Stock>, user: UserId, p: ProductId)
    requires p in stock
    requires PlanReceipt(lines, received, stock, user).Success?
    ensures Net(PlanReceipt(lines, received, stock, user).value, p) == Credited(lines, received, p)
    decreases |lines|
  {
    if lines != [] {
      var prefix := lines[..|lines| - 1];
      NetOfReceipt(prefix, received, stock, user, p);
      var moves := PlanReceipt(prefix, received, stock, user).value;
      var q := ReceivedQuantity(received, lines[|lines| - 1].product);
      if q.value >= 0 && lines[|lines| - 1].product in stock {
        assert (moves + [Movement(lines[|lines| - 1].product, Some(user), Entrada, q.value)])[..|moves|] == moves;
      }
    }
  }

  lemma {:induction false} CreditedNonNegative(lines: seq<OrderLine>, received: map<ProductId, string>, p: ProductId)
    ensures Credited(lines, received, p) >= 0
    decreases |lines|
  {
    if lines != [] {
      CreditedNonNegative(lines[..|lines| - 1], received, p);
    }
  }

  /** A successful receipt adds to each product's stock the received
      quantities of its lines (negative ones skipped), and appends only
      'ENTRADA' movements of non-negative quantity for the order's products. */
  lemma ReceiveCreditsStock(s: Store, id: int, received: map<ProductId, string>, user: UserId)
    ensures
      var (t, r) := ReceiveStep(s, id, received, user);
      r.Success? ==>
        var lines := s.orders[id].lines;
        && t.stock.Keys == s.stock.Keys
        && (forall p :: p in s.stock ==> t.stock[p] == s.stock[p].(quantity := s.stock[p].quantity + Credited(lines, received, p)))
        && |t.ledger| >= |s.ledger| && t.ledger[..|s.ledger|] == s.ledger
        && (forall k :: |s.ledger| <= k < |t.ledger| ==>
              t.ledger[k].kind == Entrada && t.ledger[k].quantity >= 0 && t.ledger[k].product in ProductsOf(lines))
  {
    var (t, r) := ReceiveStep(s, id, received, user);
    if r.Success? {
      var lines := s.orders[id].lines;
      var moves := PlanReceipt(lines, received, s.stock, user).value;
      forall p | p in s.stock
        ensures t.stock[p] == s.stock[p].(quantity := s.stock[p].quantity + Credited(lines, received, p))
      {
        NetOfReceipt(lines, received, s.stock, user, p);
        ApplyNet(s.stock, moves, p);
      }
      ReceiptMovesOrderProducts(lines, received, s.stock, user);
      PlanReceiptShape(lines, received, s.stock, user);
      assert t.ledger == s.ledger + moves;
      assert forall k :: |s.ledger| <= k < |t.ledger| ==> t.ledger[k] == moves[k - |s.ledger|];
    }
  }

  /** A receipt never lowers a quantity, so non-negative stock stays non-negative. */
  lemma ReceiveKeepsStockNonNegative(s: Store, id: int, received: map<ProductId, string>, user: UserId)
    requires NonNegative(s)
    ensures NonNegative(ReceiveStep(s, id, received, user).0)
  {
    var (t, r) := ReceiveStep(s, id, received, user);
    if r.Success? {
      ReceiveCreditsStock(s, id, received, user);
      forall p | p in t.stock
        ensures t.stock[p].quantity >= 0
      {
        CreditedNonNegative(s.orders[id].lines, received, p);
      }
    }
  }

  /** Every committed receipt keeps the database invariant. */
  lemma ReceivePreservesConsistency(s: Store, id: int, received: map<ProductId, string>, user: UserId)
    requires Consistent(s)
    ensures Consistent(ReceiveStep(s, id, received, user).0)
  {
    var (t, r) := ReceiveStep(s, id, received, user);
    if r.Success? {
      PlanReceiptShape(s.orders[id].lines, received, s.stock, user);
      ReceiptCommitConsistent(s, id, PlanReceipt(s.orders[id].lines, received, s.stock, user).value);
    }
  }

  /** Marking an order received while moving the stock by movements of known
      products, appended to the ledger, keeps the database invariant. */
  lemma {:induction false} ReceiptCommitConsistent(s: Store, id: int, moves: seq<Movement>)
    requires Consistent(s) && 0 <= id < |s.orders|
    requires forall k :: 0 <= k < |moves| ==> moves[k].product in s.stock
    ensures Consistent(s.(stock := Apply(s.stock, moves), ledger := s.ledger + moves,
                          orders := s.orders[id := s.orders[id].(status := Received)]))
  {
    CommitKeepsBalance(s.stock, s.opening, s.ledger, moves);
    var t := s.(stock := Apply(s.stock, moves), ledger := s.ledger + moves,
                orders := s.orders[id := s.orders[id].(status := Received)]);
    assert forall i :: 0 <= i < |t.ledger| ==> t.ledger[i].product in t.catalog by {
      forall i | 0 <= i < |t.ledger|
        ensures t.ledger[i].product in t.catalog
      {
        if i >= |s.ledger| {
          assert t.ledger[i] == moves[i - |s.ledger|];
        }
      }
    }
    assert forall i :: 0 <= i < |t.orders| ==> t.orders[i].lines == s.orders[i].lines;
  }

  /** Every committed order creation keeps the database invariant. */
  lemma CreateOrderPreservesConsistency(s: Store, supplier: Option<SupplierId>, pids: seq<string>, qtys: seq<string>)
    requires Consistent(s)
    ensures Consistent(CreateOrderStep(s, supplier, pids, qtys).0)
  {
    var (t, r) := CreateOrderStep(s, supplier, pids, qtys);
    if r.Success? {
      var lines := PlanOrder(s.catalog, Zip(pids, qtys)).value;
      var kept := KeptOrderRows(Zip(pids, qtys));
      assert forall i :: 0 <= i < |lines| ==> OrderLineFor(s.catalog, kept[i], lines[i]);
      assert t.orders[|s.orders|].lines == lines;
      assert OrderRecorded(t.catalog, t.orders[|s.orders|]);
    }
  }

  /** A successful order creation records one line per kept row, in order,
      with that row's product and quantity. */
  lemma CreateOrderRecordsRows(s: Store, supplier: Option<SupplierId>, pids: seq<string>, qtys: seq<string>)
    ensures
      var (t, r) := CreateOrderStep(s, supplier, pids, qtys);
      r.Success? ==>
        var lines := t.orders[|s.orders|].lines;
        var kept := KeptOrderRows(Zip(pids, qtys));
        |lines| == |kept| && forall i :: 0 <= i < |kept| ==> OrderLineFor(s.catalog, kept[i], lines[i])
  {
  }

  /** The order form does not insist on a kept row: a product submitted with
      quantity 0 still creates a 'Pendente' order, with no lines. */
  lemma CreateOrderMayHaveNoLines(s: Store, supplier: SupplierId)
    ensures
      var (t, r) := CreateOrderStep(s, Some(supplier), ["5"], ["0"]);
      r.Success? && t.orders[|s.orders|] == Order(supplier, Pending, [])
  {
    var rows := Zip(["5"], ["0"]);
    assert rows[..0] == [];
    assert ParseInt("0") == Some(0) by { assert DecimalValue("0") == 0; }
  }

  /** Every committed restock request keeps the database invariant. */
  lemma ContactSupplierPreservesConsistency(s: Store, product: ProductId, qty: string)
    requires Consistent(s)
    ensures Consistent(ContactSupplierStep(s, product, qty).0)
  {
  }
}

=== FILE: sales.dfy ===
/** Sale entry (`nova_venda`): reading the submitted rows, checking each
    against current stock, pricing it, and writing the sale, its lines, the
    stock decrements and one 'SAÍDA' movement per line. */
module Sales {
  import opened Wrappers
  import opened Form
  import opened Models
  import opened Ledger
  import opened Database

  /** `q and q.isdigit() and int(q) > 0`: a quantity field holding a positive number. */
  predicate PositiveDigits(q: string) {
    IsDigits(q) && DecimalValue(q) > 0
  }

  /** A row the sale loop does not skip: a product id and a positive quantity. */
  predicate Accepted(row: Row) {
    |row.0| > 0 && PositiveDigits(row.1)
  }

  /** The rows the sale loop does not skip, in order. */
  function AcceptedRows(rows: seq<Row>): (kept: seq<Row>)
    ensures forall i :: 0 <= i < |kept| ==> Accepted(kept[i])
    decreases |rows|
  {
    if rows == [] then []
    else AcceptedRows(rows[..|rows| - 1]) + (if Accepted(rows[|rows| - 1]) then [rows[|rows| - 1]] else [])
  }

  /** The sale loop keeps a row exactly when it is `Accepted`, in order: the
      filter distributes over concatenation and keeps a single row iff it is
      accepted. */
  lemma {:induction false} AcceptedRowsFilters(a: seq<Row>, b: seq<Row>, row: Row)
    ensures AcceptedRows(a + b) == AcceptedRows(a) + AcceptedRows(b)
    ensures AcceptedRows([row]) == if Accepted(row) then [row] else []
    decreases |b|
  {
    if b == [] {
      assert a + b == a;
    } else {
      var init, last := b[..|b| - 1], b[|b| - 1];
      var tail := if Accepted(last) then [last] else [];
      assert (a + b)[..|a + b| - 1] == a + init;
      assert (a + b)[|a + b| - 1] == last;
      calc {
        AcceptedRows(a + b);
        AcceptedRows(a + init) + tail;
        { AcceptedRowsFilters(a, init, row); }
        (AcceptedRows(a) + AcceptedRows(init)) + tail;
        AcceptedRows(a) + (AcceptedRows(init) + tail);
        AcceptedRows(a) + AcceptedRows(b);
      }
    }
    assert [row][..0] == [];
  }

  /** The gate before the loop, as written: some product id was submitted and
      some quantity field, at any position, holds a positive number. */
  predicate EntryCheckAsWritten(pids: seq<string>, qtys: seq<string>) {
    |pids| > 0 && exists i :: 0 <= i < |qtys| && PositiveDigits(qtys[i])
  }

  /** The gate as intended: some row the loop will actually sell. */
  predicate HasAcceptedRow(pids: seq<string>, qtys: seq<string>) {
    exists i :: 0 <= i < |pids| && i < |qtys| && Accepted((pids[i], qtys[i]))
  }

  /** The price charged: the promotional price when it is set and non-zero
      (a truthy decimal), otherwise the base price. */
  function UnitPrice(product: Product): (price: Cents)
    ensures price == product.price || (product.promoPrice.Some? && price == product.promoPrice.value)
    ensures product.promoPrice.None? ==> price == product.price
  {
    if product.promoPrice.Some? && product.promoPrice.value != 0 then product.promoPrice.value else product.price
  }

  /** An accepted row the shop can serve: its id is a number naming a known
      product that has at least the asked quantity in stock. */
  predicate Available(catalog: map<ProductId, Product>, stock: map<ProductId, Stock>, row: Row) {
    && PositiveDigits(row.1)
    && ParseInt(row.0).Some?
    && ParseInt(row.0).value in catalog
    && ParseInt(row.0).value in stock
    && DecimalValue(row.1) <= stock[ParseInt(row.0).value].quantity
  }

  /** The sale line built from an accepted row: the row's product and
      quantity, a quantity the stock covers, and the unit price at sale time. */
  predicate LineFor(catalog: map<ProductId, Product>, stock: map<ProductId, Stock>, row: Row, line: SaleLine) {
    && PositiveDigits(row.1)
    && ParseInt(row.0) == Some(line.product)
    && line.quantity == DecimalValue(row.1)
    && line.product in catalog
    && line.product in stock
    && line.quantity <= stock[line.product].quantity
    && line.unitPrice == UnitPrice(catalog[line.product])
  }

  /** One row of the validation loop: a row that is not accepted is skipped;
      an accepted row whose id is not a number, whose product is unknown, or
      whose quantity exceeds the stock refuses the sale; any other accepted
      row is priced. */
  function PriceRow(catalog: map<ProductId, Product>, stock: map<ProductId, Stock>, row: Row): (r: Result<Option<SaleLine>, Error>)
    requires catalog.Keys <= stock.Keys
    ensures r.Success? && r.value.None? <==> !Accepted(row)
    ensures r.Success? && r.value.Some? ==> LineFor(catalog, stock, row, r.value.value)
    ensures r.Failure? && r.error.InsufficientStock? ==>
      r.error.product in stock && r.error.available == stock[r.error.product].quantity
  {
    if !Accepted(row) then Success(None)
    else
      match ParseInt(row.0)
      case None => Failure(MalformedNumber)
      case Some(p) =>
        var qty := DecimalValue(row.1);
        if p !in catalog then Failure(UnknownProduct(p))
        else if stock[p].quantity < qty then Failure(InsufficientStock(p, stock[p].quantity))
        else Success(Some(SaleLine(p, qty, UnitPrice(catalog[p]))))
  }

  /** The validation loop: the rows in order, stopping at the first that
      refuses the sale; nothing is written. */
  function PlanSale(catalog: map<ProductId, Product>, stock: map<ProductId, Stock>, rows: seq<Row>): (r: Result<seq<SaleLine>, Error>)
    requires catalog.Keys <= stock.Keys
    decreases |rows|
  {
    if rows == [] then Success([])
    else
      match PlanSale(catalog, stock, rows[..|rows| - 1])
      case Failure(e) => Failure(e)
      case Success(lines) =>
        match PriceRow(catalog, stock, rows[|rows| - 1])
        case Failure(e) => Failure(e)
        case Success(None) => Success(lines)
        case Success(Some(line)) => Success(lines + [line])
  }

  /** A successful validation loop prices every accepted row, in order, and
      nothing else; a refusal for lack of stock reports the quantity on hand. */
  lemma {:induction false} PlanSaleLines(catalog: map<ProductId, Product>, stock: map<ProductId, Stock>, rows: seq<Row>)
    requires catalog.Keys <= stock.Keys
    ensures var r := PlanSale(catalog, stock, rows);
      r.Success? ==>
        && |r.value| == |AcceptedRows(rows)|
        && forall i :: 0 <= i < |r.value| ==> LineFor(catalog, stock, AcceptedRows(rows)[i], r.value[i])
    ensures var r := PlanSale(catalog, stock, rows);
      r.Failure? && r.error.InsufficientStock? ==>
        r.error.product in stock && r.error.available == stock[r.error.product].quantity
    decreases |rows|
  {
    if rows != [] {
      PlanSaleLines(catalog, stock, rows[..|rows| - 1]);
    }
  }

  /** One 'SAÍDA' movement per sale line, with the (positive) quantity sold. */
  function SaleMovements(lines: seq<SaleLine>, user: UserId): seq<Movement> {
    seq(|lines|, i requires 0 <= i < |lines| => Movement(lines[i].product, Some(user), Saida, lines[i].quantity))
  }

  /** A sale request after its entry gate, from the validation loop to the
      commit. Every refusal and every rollback leaves the store as it was.
      The duplicate-product refusal is the commit failing on the
      (product, sale) key of the sale lines. */
  function SellRows(s: Store, customer: CustomerId, payment: Option<PaymentId>, rows: seq<Row>, user: UserId): (r: (Store, Result<SaleId, Error>))
    requires s.catalog.Keys <= s.stock.Keys
    ensures r.1.Failure? ==> r.0 == s
    ensures r.1.Success? ==> r.1.value == |s.sales| && |r.0.sales| == |s.sales| + 1 && r.0.sales[..|s.sales|] == s.sales
    ensures r.0.catalog == s.catalog && r.0.opening == s.opening && r.0.nextProduct == s.nextProduct
    ensures r.0.orders == s.orders && r.0.messages == s.messages
  {
    match PlanSale(s.catalog, s.stock, rows)
    case Failure(e) => (s, Failure(e))
    case Success(lines) =>
      if payment.None? then (s, Failure(NoPaymentMethod))
      else if !DistinctProducts(lines) then (s, Failure(DuplicateSaleLine))
      else
        var moves := SaleMovements(lines, user);
        var sale := Sale(customer, payment.value, SumLines(lines), lines);
        (s.(stock := Apply(s.stock, moves), ledger := s.ledger + moves, sales := s.sales + [sale]), Success(|s.sales|))
  }

  /** A sale request from start to commit, with the entry gate as intended:
      a customer must be chosen and some row must be one the loop sells. */
  function SellStep(s: Store, customer: Option<CustomerId>, payment: Option<PaymentId>,
                    pids: seq<string>, qtys: seq<string>, user: UserId): (r: (Store, Result<SaleId, Error>))
    requires s.catalog.Keys <= s.stock.Keys
    ensures r.1.Failure? ==> r.0 == s
    ensures r.1.Success? ==> r.1.value == |s.sales| && |r.0.sales| == |s.sales| + 1 && r.0.sales[..|s.sales|] == s.sales
    ensures r.0.catalog == s.catalog && r.0.opening == s.opening && r.0.nextProduct == s.nextProduct
    ensures r.0.orders == s.orders && r.0.messages == s.messages
  {
    if customer.None? then (s, Failure(NoCustomer))
    else if !HasAcceptedRow(pids, qtys) then (s, Failure(NoSaleLines))
    else SellRows(s, customer.value, payment, Zip(pids, qtys), user)
  }

  /** The same request with the entry gate as written. */
  function SellStepAsWritten(s: Store, customer: Option<CustomerId>, payment: Option<PaymentId>,
                             pids: seq<string>, qtys: seq<string>, user: UserId): (r: (Store, Result<SaleId, Error>))
    requires s.catalog.Keys <= s.stock.Keys
    ensures r.1.Failure? ==> r.0 == s
    ensures HasAcceptedRow(pids, qtys) ==> r == SellStep(s, customer, payment, pids, qtys, user)
  {
    if customer.None? then (s, Failure(NoCustomer))
    else if !EntryCheckAsWritten(pids, qtys) then (s, Failure(NoSaleLines))
    else
      CorrectedGate(pids, qtys);
      SellRows(s, customer.value, payment, Zip(pids, qtys), user)
  }

  lemma {:induction false} AcceptedRowsEmptyIff(rows: seq<Row>)
    ensures AcceptedRows(rows) == [] <==> forall i :: 0 <= i < |rows| ==> !Accepted(rows[i])
    decreases |rows|
  {
    if rows != [] {
      var prefix := rows[..|rows| - 1];
      AcceptedRowsEmptyIff(prefix);
      assert forall i :: 0 <= i < |prefix| ==> prefix[i] == rows[i];
    }
  }

  /** The intended gate admits exactly the requests with a row to sell, and
      admits nothing the written gate refuses. */
  lemma CorrectedGate(pids: seq<string>, qtys: seq<string>)
    ensures HasAcceptedRow(pids, qtys) <==> AcceptedRows(Zip(pids, qtys)) != []
    ensures HasAcceptedRow(pids, qtys) ==> EntryCheckAsWritten(pids, qtys)
  {
    var rows := Zip(pids, qtys);
    AcceptedRowsEmptyIff(rows);
    if HasAcceptedRow(pids, qtys) {
      var i :| 0 <= i < |pids| && i < |qtys| && Accepted((pids[i], qtys[i]));
      assert rows[i] == (pids[i], qtys[i]);
    } else {
      forall i | 0 <= i < |rows|
        ensures !Accepted(rows[i])
      {
        assert rows[i] == (pids[i], qtys[i]);
      }
    }
  }

  /** The written gate admits a request with no row to sell: a quantity
      whose product field is empty, or a positive quantity past the end of
      the product list. The loop then builds no line, and the route goes on
      to record a sale with no lines and a total of 0. */
  lemma EmptySaleAsWritten(catalog: map<ProductId, Product>, stock: map<ProductId, Stock>)
    requires catalog.Keys <= stock.Keys
    ensures EntryCheckAsWritten([""], ["3"]) && !HasAcceptedRow([""], ["3"])
    ensures PlanSale(catalog, stock, Zip([""], ["3"])) == Success([])
    ensures EntryCheckAsWritten(["7"], ["0", "2"]) && !HasAcceptedRow(["7"], ["0", "2"])
    ensures PlanSale(catalog, stock, Zip(["7"], ["0", "2"])) == Success([])
    ensures SumLines([]) == 0
  {
    var q1, q2 := ["3"], ["0", "2"];
    assert PositiveDigits(q1[0]) by { assert DecimalValue("3") == 3; }
    assert PositiveDigits(q2[1]) by { assert DecimalValue("2") == 2; }
    assert !PositiveDigits(q2[0]) by { assert DecimalValue("0") == 0; }
    var rows1 := Zip([""], ["3"]);
    assert rows1[..0] == [];
    var rows2 := Zip(["7"], ["0", "2"]);
    assert rows2[..0] == [];
  }

  /** When no row survives the loop, the commit still records a sale, with
      no lines and a zero total, and moves no stock. */
  lemma SellRowsWithoutLines(s: Store, customer: CustomerId, payment: PaymentId, rows: seq<Row>, user: UserId)
    requires s.catalog.Keys <= s.stock.Keys && PlanSale(s.catalog, s.stock, rows) == Success([])
    ensures SellRows(s, customer, Some(payment), rows, user)
      == (s.(sales := s.sales + [Sale(customer, payment, 0, [])]), Success(|s.sales|))
  {
    assert Apply(s.stock, SaleMovements([], user)) == s.stock;
    assert s.ledger + SaleMovements([], user) == s.ledger;
  }

  /** As written, the route commits a sale with no lines and a total of 0
      for a quantity whose product field is empty: a record that breaks the
      database invariant, whose sales all have at least one line. */
  lemma SellAsWrittenRecordsEmptySale(s: Store, customer: CustomerId, payment: PaymentId, user: UserId)
    requires Consistent(s)
    ensures
      var (t, r) := SellStepAsWritten(s, Some(customer), Some(payment), [""], ["3"], user);
      && r == Success(|s.sales|)
      && t == s.(sales := s.sales + [Sale(customer, payment, 0, [])])
      && !Consistent(t)
  {
    EmptySaleAsWritten(s.catalog, s.stock);
    SellRowsWithoutLines(s, customer, payment, Zip([""], ["3"]), user);
    var t := s.(sales := s.sales + [Sale(customer, payment, 0, [])]);
    assert !SaleRecorded(t.catalog, t.sales[|s.sales|]);
  }

  /** Once the loop has refused the sale at some row, the later rows do not matter. */
  lemma {:induction false} PlanSaleFailureSticks(catalog: map<ProductId, Product>, stock: map<ProductId, Stock>, rows: seq<Row>, i: nat)
    requires catalog.Keys <= stock.Keys
    requires i <= |rows| && PlanSale(catalog, stock, rows[..i]).Failure?
    ensures PlanSale(catalog, stock, rows) == PlanSale(catalog, stock, rows[..i])
    decreases |rows|
  {
    if i == |rows| {
      assert rows[..i] == rows;
    } else {
      var prefix := rows[..|rows| - 1];
      assert prefix[..i] == rows[..i];
      PlanSaleFailureSticks(catalog, stock, prefix, i);
    }
  }

  /** One more row of the validation loop. */
  lemma PlanSaleNext(catalog: map<ProductId, Product>, stock: map<ProductId, Stock>, rows: seq<Row>, i: nat, lines: seq<SaleLine>)
    requires catalog.Keys <= stock.Keys
    requires i < |rows| && PlanSale(catalog, stock, rows[..i]) == Success(lines)
    ensures
      var step := PriceRow(catalog, stock, rows[i]);
      PlanSale(catalog, stock, rows[..i + 1]) ==
        if step.Failure? then Failure(step.error)
        else if step.value.None? then Success(lines)
        else Success(lines + [step.value.value])
  {
    assert rows[..i + 1][..i] == rows[..i];
  }

  /** A row that refuses the sale ends the validation loop with its error. */
  lemma PlanSaleStops(catalog: map<ProductId, Product>, stock: map<ProductId, Stock>, rows: seq<Row>, i: nat, lines: seq<SaleLine>)
    requires catalog.Keys <= stock.Keys
    requires i < |rows| && PlanSale(catalog, stock, rows[..i]) == Success(lines)
    requires PriceRow(catalog, stock, rows[i]).Failure?
    ensures PlanSale(catalog, stock, rows) == Failure(PriceRow(catalog, stock, rows[i]).error)
  {
    PlanSaleNext(catalog, stock, rows, i, lines);
    PlanSaleFailureSticks(catalog, stock, rows, i + 1);
  }

  /** The loop succeeds exactly when every accepted row can be served. */
  lemma {:induction false} PlanSaleSucceedsIff(catalog: map<ProductId, Product>, stock: map<ProductId, Stock>, rows: seq<Row>)
    requires catalog.Keys <= stock.Keys
    ensures PlanSale(catalog, stock, rows).Success? <==>
      forall i :: 0 <= i < |rows| && Accepted(rows[i]) ==> Available(catalog, stock, rows[i])
    decreases |rows|
  {
    if rows != [] {
      var prefix := rows[..|rows| - 1];
      PlanSaleSucceedsIff(catalog, stock, prefix);
      assert forall i :: 0 <= i < |prefix| ==> prefix[i] == rows[i];
    }
  }

  /** A row that cannot be served (id not a number, unknown product, or more
      than the stock on hand) rejects the whole sale: no sale, no line, no
      movement, no stock change. */
  lemma SellRejectsUnservableRow(s: Store, customer: Option<CustomerId>, payment: Option<PaymentId>,
                                 pids: seq<string>, qtys: seq<string>, user: UserId, i: nat)
    requires s.catalog.Keys <= s.stock.Keys
    requires i < |pids| && i < |qtys| && Accepted((pids[i], qtys[i]))
    requires !Available(s.catalog, s.stock, (pids[i], qtys[i]))
    ensures SellStep(s, customer, payment, pids, qtys, user).1.Failure?
    ensures SellStep(s, customer, payment, pids, qtys, user).0 == s
  {
    var rows := Zip(pids, qtys);
    assert rows[i] == (pids[i], qtys[i]);
    PlanSaleSucceedsIff(s.catalog, s.stock, rows);
  }

  /** A successful sale records the customer and payment given and one line
      per accepted row, in order: the row's product and quantity, the unit
      price the product had at that moment, and a total equal to the sum of
      unit price times quantity. */
  lemma SellRecordsRequest(s: Store, customer: Option<CustomerId>, payment: Option<PaymentId>,
                           pids: seq<string>, qtys: seq<string>, user: UserId)
    requires s.catalog.Keys <= s.stock.Keys
    ensures
      var (t, r) := SellStep(s, customer, payment, pids, qtys, user);
      r.Success? ==>
        var sale := t.sales[|s.sales|];
        var kept := AcceptedRows(Zip(pids, qtys));
        && customer == Some(sale.customer) && payment == Some(sale.payment)
        && |sale.lines| == |kept| > 0
        && (forall i :: 0 <= i < |kept| ==> LineFor(s.catalog, s.stock, kept[i], sale.lines[i]))
        && sale.total == SumLines(sale.lines)
  {
    CorrectedGate(pids, qtys);
    PlanSaleLines(s.catalog, s.stock, Zip(pids, qtys));
  }

  lemma {:induction false} NetOfSale(lines: seq<SaleLine>, user: UserId, k: nat)
    requires DistinctProducts(lines) && k < |lines|
    ensures Net(SaleMovements(lines, user), lines[k].product) == -lines[k].quantity
    decreases |lines|
  {
    var n := |lines|;
    var moves := SaleMovements(lines, user);
    var prefix := lines[..n - 1];
    assert moves[..n - 1] == SaleMovements(prefix, user);
    if k == n - 1 {
      NetOfUnnamed(SaleMovements(prefix, user), lines[k].product);
    } else {
      NetOfSale(prefix, user, k);
    }
  }

  lemma {:induction false} NetOfUnsold(lines: seq<SaleLine>, user: UserId, p: ProductId)
    requires forall i :: 0 <= i < |lines| ==> lines[i].product != p
    ensures Net(SaleMovements(lines, user), p) == 0
  {
    NetOfUnnamed(SaleMovements(lines, user), p);
  }

  /** Applying a sale's movements lowers each sold product's quantity by
      its line's quantity and leaves every other product alone. */
  lemma ApplySale(stock: map<ProductId, Stock>, lines: seq<SaleLine>, user: UserId)
    requires DistinctProducts(lines)
    ensures var t := Apply(stock, SaleMovements(lines, user));
      && (forall i :: 0 <= i < |lines| && lines[i].product in stock ==>
            t[lines[i].product] == stock[lines[i].product].(quantity := stock[lines[i].product].quantity - lines[i].quantity))
      && (forall p :: p in stock && (forall i :: 0 <= i < |lines| ==> lines[i].product != p) ==> t[p] == stock[p])
  {
    var t := Apply(stock, SaleMovements(lines, user));
    forall i | 0 <= i < |lines| && lines[i].product in stock
      ensures t[lines[i].product] == stock[lines[i].product].(quantity := stock[lines[i].product].quantity - lines[i].quantity)
    {
      NetOfSale(lines, user, i);
      ApplyNet(stock, SaleMovements(lines, user), lines[i].product);
    }
    forall p | p in stock && (forall i :: 0 <= i < |lines| ==> lines[i].product != p)
      ensures t[p] == stock[p]
    {
      NetOfUnsold(lines, user, p);
      ApplyNet(stock, SaleMovements(lines, user), p);
    }
  }

  /** What a committed sale writes: its lines are the plan's, with no
      product twice and every product in stock; the stock moves by their
      'SAÍDA' movements, which are appended to the ledger. */
  lemma SellRowsCommit(s: Store, customer: CustomerId, payment: Option<PaymentId>, rows: seq<Row>, user: UserId)
    requires s.catalog.Keys <= s.stock.Keys
    ensures
      var (t, r) := SellRows(s, customer, payment, rows, user);
      r.Success? ==>
        var lines := t.sales[|s.sales|].lines;
        && PlanSale(s.catalog, s.stock, rows) == Success(lines)
        && DistinctProducts(lines)
        && (forall i :: 0 <= i < |lines| ==> lines[i].product in s.stock && lines[i].quantity > 0)
        && t.stock == Apply(s.stock, SaleMovements(lines, user))
        && t.ledger == s.ledger + SaleMovements(lines, user)
  {
    var (t, r) := SellRows(s, customer, payment, rows, user);
    if r.Success? {
      var lines := PlanSale(s.catalog, s.stock, rows).value;
      PlanSaleLines(s.catalog, s.stock, rows);
      assert forall i :: 0 <= i < |lines| ==> LineFor(s.catalog, s.stock, AcceptedRows(rows)[i], lines[i]);
    }
  }

  /** A successful sale lowers each sold product's stock by exactly the
      quantity sold, leaves every other product's stock alone, and appends
      one 'SAÍDA' movement per line carrying that positive quantity. */
  lemma SellDebitsExactly(s: Store, customer: CustomerId, payment: Option<PaymentId>, rows: seq<Row>, user: UserId)
    requires s.catalog.Keys <= s.stock.Keys
    ensures
      var (t, r) := SellRows(s, customer, payment, rows, user);
      r.Success? ==>
        var lines := t.sales[|s.sales|].lines;
        && t.stock.Keys == s.stock.Keys
        && (forall i :: 0 <= i < |lines| ==>
              lines[i].product in s.stock &&
              t.stock[lines[i].product] == s.stock[lines[i].product].(quantity := s.stock[lines[i].product].quantity - lines[i].quantity))
        && (forall p :: p in s.stock && (forall i :: 0 <= i < |lines| ==> lines[i].product != p) ==> t.stock[p] == s.stock[p])
  {
    var (t, r) := SellRows(s, customer, payment, rows, user);
    if r.Success? {
      SellRowsCommit(s, customer, payment, rows, user);
      ApplySale(s.stock, t.sales[|s.sales|].lines, user);
    }
  }

  /** Appending a sale's movements adds one 'SAÍDA' per line, in order. */
  lemma SaidasAppended(ledger: seq<Movement>, lines: seq<SaleLine>, user: UserId)
    ensures var l := ledger + SaleMovements(lines, user);
      && |l| == |ledger| + |lines| && l[..|ledger|] == ledger
      && forall i :: 0 <= i < |lines| ==> l[|ledger| + i] == Movement(lines[i].product, Some(user), Saida, lines[i].quantity)
  {
    var l := ledger + SaleMovements(lines, user);
    forall i | 0 <= i < |lines|
      ensures l[|ledger| + i] == Movement(lines[i].product, Some(user), Saida, lines[i].quantity)
    {
      assert l[|ledger| + i] == SaleMovements(lines, user)[i];
    }
  }

  /** A committed sale appends to the ledger one 'SAÍDA' movement per line,
      in order, for the line's product and positive quantity, by the acting
      user. */
  lemma SellLogsSaidas(s: Store, customer: CustomerId, payment: Option<PaymentId>, rows: seq<Row>, user: UserId)
    requires s.catalog.Keys <= s.stock.Keys
    ensures
      var (t, r) := SellRows(s, customer, payment, rows, user);
      r.Success? ==>
        var lines := t.sales[|s.sales|].lines;
        && |t.ledger| == |s.ledger| + |lines| && t.ledger[..|s.ledger|] == s.ledger
        && (forall i :: 0 <= i < |lines| ==>
              lines[i].quantity > 0 && t.ledger[|s.ledger| + i] == Movement(lines[i].product, Some(user), Saida, lines[i].quantity))
  {
    var (t, r) := SellRows(s, customer, payment, rows, user);
    if r.Success? {
      SellRowsCommit(s, customer, payment, rows, user);
      SaidasAppended(s.ledger, t.sales[|s.sales|].lines, user);
    }
  }

  /** Committing a sale with at least one kept row keeps the database
      invariant: quantities still agree with the ledger, and the new sale is
      a proper record. */
  lemma SellRowsPreservesConsistency(s: Store, customer: CustomerId, payment: Option<PaymentId>, rows: seq<Row>, user: UserId)
    requires Consistent(s) && AcceptedRows(rows) != []
    ensures Consistent(SellRows(s, customer, payment, rows, user).0)
  {
    var (t, r) := SellRows(s, customer, payment, rows, user);
    if r.Success? {
      SellRowsCommit(s, customer, payment, rows, user);
      PlanSaleLines(s.catalog, s.stock, rows);
      var sale := t.sales[|s.sales|];
      assert t.sales == s.sales + [sale];
      SaleCommitConsistent(s, sale, user);
    }
  }

  /** Committing a well-formed sale (non-empty, distinct known products,
      positive quantities, the right total) together with its movements
      keeps the database invariant. */
  lemma SaleCommitConsistent(s: Store, sale: Sale, user: UserId)
    requires Consistent(s) && SaleRecorded(s.catalog, sale)
    ensures var moves := SaleMovements(sale.lines, user);
      Consistent(s.(stock := Apply(s.stock, moves), ledger := s.ledger + moves, sales := s.sales + [sale]))
  {
    var moves := SaleMovements(sale.lines, user);
    CommitKeepsBalance(s.stock, s.opening, s.ledger, moves);
    var t := s.(stock := Apply(s.stock, moves), ledger := s.ledger + moves, sales := s.sales + [sale]);
    assert forall i :: 0 <= i < |t.ledger| ==> t.ledger[i].product in t.catalog by {
      forall i | 0 <= i < |t.ledger|
        ensures t.ledger[i].product in t.catalog
      {
        if i >= |s.ledger| {
          assert t.ledger[i] == moves[i - |s.ledger|];
        }
      }
    }
    assert forall i :: 0 <= i < |t.sales| ==> SaleRecorded(t.catalog, t.sales[i]) by {
      forall i | 0 <= i < |t.sales|
        ensures SaleRecorded(t.catalog, t.sales[i])
      {
        if i < |s.sales| {
          assert t.sales[i] == s.sales[i];
        }
      }
    }
  }

  /** Given non-negative stock, committing a sale never drives a quantity
      below zero: each product appears in at most one line and that line
      asks no more than the stock on hand. */
  lemma SellRowsKeepsStockNonNegative(s: Store, customer: CustomerId, payment: Option<PaymentId>, rows: seq<Row>, user: UserId)
    requires s.catalog.Keys <= s.stock.Keys && NonNegative(s)
    ensures NonNegative(SellRows(s, customer, payment, rows, user).0)
  {
    var (t, r) := SellRows(s, customer, payment, rows, user);
    if r.Success? {
      SellDebitsExactly(s, customer, payment, rows, user);
      SellRowsCommit(s, customer, payment, rows, user);
      PlanSaleLines(s.catalog, s.stock, rows);
      var lines := t.sales[|s.sales|].lines;
      forall p | p in t.stock
        ensures t.stock[p].quantity >= 0
      {
        if i :| 0 <= i < |lines| && lines[i].product == p {
          assert LineFor(s.catalog, s.stock, AcceptedRows(rows)[i], lines[i]);
        }
      }
    }
  }

  /** The store a sale commits once every check has passed. */
  lemma SellStepCommits(s: Store, customer: CustomerId, payment: PaymentId, pids: seq<string>, qtys: seq<string>,
                        user: UserId, items: seq<SaleLine>)
    requires s.catalog.Keys <= s.stock.Keys && HasAcceptedRow(pids, qtys)
    requires PlanSale(s.catalog, s.stock, Zip(pids, qtys)) == Success(items) && DistinctProducts(items)
    ensures var moves := SaleMovements(items, user);
      SellStep(s, Some(customer), Some(payment), pids, qtys, user)
        == (s.(stock := Apply(s.stock, moves), ledger := s.ledger + moves,
               sales := s.sales + [Sale(customer, payment, SumLines(items), items)]), Success(|s.sales|))
  {
  }

  /** Every committed sale keeps the database invariant. */
  lemma SellPreservesConsistency(s: Store, customer: Option<CustomerId>, payment: Option<PaymentId>,
                                 pids: seq<string>, qtys: seq<string>, user: UserId)
    requires Consistent(s)
    ensures Consistent(SellStep(s, customer, payment, pids, qtys, user).0)
  {
    if customer.Some? && HasAcceptedRow(pids, qtys) {
      CorrectedGate(pids, qtys);
      SellRowsPreservesConsistency(s, customer.value, payment, Zip(pids, qtys), user);
    }
  }

  /** Given non-negative stock, a sale never drives a quantity below zero. */
  lemma SellKeepsStockNonNegative(s: Store, customer: Option<CustomerId>, payment: Option<PaymentId>,
                                  pids: seq<string>, qtys: seq<string>, user: UserId)
    requires s.catalog.Keys <= s.stock.Keys && NonNegative(s)
    ensures NonNegative(SellStep(s, customer, payment, pids, qtys, user).0)
  {
    if customer.Some? && HasAcceptedRow(pids, qtys) {
      SellRowsKeepsStockNonNegative(s, customer.value, payment, Zip(pids, qtys), user);
    }
  }

  /** Under the promotion rule (a promotional price is absent or positive)
      the price charged is the promotional price whenever one is set, and
      the base price otherwise. */
  lemma UnitPriceUnderPromotionRule(product: Product)
    requires PromotionSet(product)
    ensures UnitPrice(product) == if product.promoPrice.Some? then product.promoPrice.value else product.price
  {
  }
}

=== FILE: wrappers.dfy ===
/** Option and Result values for absent fields and for the error paths of the
    web routes (a rejected request, an exception that rolls the session back). */
module Wrappers {

  datatype Option<+T> = None | Some(value: T)

  datatype Result<+T, +E> = Success(value: T) | Failure(error: E)
}
